=== FILE: README.md ===
# Photo booth: drawing plan, capture machine and navigation

A Dafny model of the logic at the heart of a browser photo booth. The booth has
three parts:

- **The photo editor's drawing.** It draws one framed photo on an 800 x 600
  canvas: a white background, then the photo inside the border's padding under a
  colour filter, then the filter reset, then the border (hearts, stars, flowers
  or a rainbow).
- **The capture screen.** It runs a 3-2-1 countdown per photo, takes four
  photos, releases the camera and hands the photos over.
- **The top-level page.** It switches between the home, capture and print
  steps, and shows the print preview only with four photos.

How the pieces are modelled:

- **Canvas calls are data.** They are values of `Canvas.Command`.
  `Canvas.Render` gives a command list its meaning: the list of `Mark`s it
  paints. Each mark records its shape and the fill colour and filter in force
  when it was painted. Assigning the canvas size resets the drawing state, as it
  does in a browser.
- **Each drawing function is a pure command-list generator.**
  - drawPhoto is `Editor.DrawPhoto`.
  - getFilterCSS is `Filters.FilterCss`.
  - drawBorder is `Editor.DrawBorder`.
  - The three tiled borders are `Motifs.MotifBorder`. The tiling loops are
    modelled in `Tiling`.
  - drawRainbowBorder is `Rainbow.RainbowBorder`.
- **The capture screen is the state machine `Capture`.** Every button press and
  every timer firing is one `Event`. The state lists the countdown intervals
  still running and counts the 500 ms timeouts still pending. Each interval
  keeps the `capturedPhotos` its callback closed over. A press uses the
  callback of the latest render, so a new interval closes over the current
  photos. A tick names the interval that fires, and a photo is appended to
  that interval's list. The machine takes a flag `withReset`:
  - `AsWritten` (true) is the component as written;
  - `Corrected` (false) drops the 500 ms timeout (see "## Findings").

  Unless a row says otherwise, every capture and booth property is proved for
  both, so in particular for the program as written. Only NoOverlap,
  StepPreservesInv, ShutterMeansIdle, PhotosOnlyGrow and PhotosKept are
  specific to the corrected machine.
- **The page is the state machine `Navigation`.**
- **`Booth` connects the two machines.** What the capture screen hands over is
  what the print step receives.

The rainbow's bands are not concentric. Each band's bottom and right
rectangles lie at `dimension - 40 + offset`, so on those two edges red touches
the photo and violet touches the canvas edge (`Rainbow.BandsMirrored`).

Files:

- `canvas.dfy`, `filters.dfy`, `tiling.dfy`, `motifs.dfy`, `rainbow.dfy` and
  `editor.dfy` model the editor.
- `capture.dfy` models the capture screen.
- `navigation.dfy` models the page.
- `booth.dfy` connects the capture screen and the page.

## Model

| member | source | states |
|---|---|---|
| Filters.FilterCss | src/components/PhotoEditor.tsx:73-86 | The exact CSS text for warm, cool, vintage and bright. The result is "none" exactly when the id is not one of those four, so "none" and unknown ids both give "none". |
| Filters.KnownFiltersDistinct | src/components/PhotoEditor.tsx:73-86 | Two different known filter ids never give the same CSS text. |
| Editor.PhotoGeometry | src/components/PhotoEditor.tsx:44-61 | The photo is drawn at (p, p) with size (800 - 2p) x (600 - 2p). With a border p is 40 (720 x 520), without one it is the full canvas, and it is centred either way. With a border, its top and left edges meet the inner edge of the rainbow's band 6, and its bottom and right edges that of band 0. |
| Editor.FilterScope | src/components/PhotoEditor.tsx:47-67 | Call order: the three setup calls come first. A filter assignment comes next exactly when the filter id is not "none", and it carries that id's CSS. Then the photo is drawn once, the filter is reset to "none" right after, and everything after that is the border step. |
| Editor.SetupRender | src/components/PhotoEditor.tsx:44-49 | From any earlier canvas state, the resize and the white fill paint exactly one white box over the whole canvas with no filter. |
| Editor.ImageRender | src/components/PhotoEditor.tsx:56-62 | The filter step paints nothing and leaves the filter's CSS in force. The photo is painted under that filter, and afterwards the state is back to white fill with no filter. |
| Editor.DrawPhotoRender | src/components/PhotoEditor.tsx:42-67 | What drawPhoto paints, from any earlier state: first the white full-canvas box with no filter, then the photo in its padded rectangle under the chosen filter's CSS, then exactly as many marks as the frame paints. None of the border marks is filtered or is the photo, and no filter is in force at the end. |
| Editor.FrameOfIds | src/components/PhotoEditor.tsx:88-105 | The border switch picks a frame for exactly the four border ids and does nothing for any other id, since it has no default case. Each id maps to its own frame and back, both ways. |
| Editor.BorderStepIsDrawBorder | src/components/PhotoEditor.tsx:64-67 | Skipping drawBorder for "none" is the same as calling it. Every id outside the four border ids draws nothing. |
| Editor.FrameRender | src/components/PhotoEditor.tsx:88-105 | Mark counts on the 800 x 600 canvas: 112 hearts, 94 stars, 112 flowers of six marks each (672 marks), 28 rainbow rectangles, and nothing for other ids. All of them are painted under the filter in force, which they leave unchanged. |
| Editor.EditorCounts | src/components/PhotoEditor.tsx:113-121 | Loop step counts on the 800 x 600 canvas: 32 and 24 steps at spacing 25, and 27 and 20 at spacing 30. |
| Editor.HeartsInFrame | src/components/PhotoEditor.tsx:107-122 | Every heart on the editor's canvas has its 12 x 12 box inside the canvas and within 40 pixels of some edge, so no heart reaches into the photo. |
| Tiling.TicksShape | src/components/PhotoEditor.tsx:113 | A `for (v = start; v < limit; v += spacing)` loop visits start + i * spacing in order and stops at the first value that reaches the limit. |
| Tiling.TicksCount | src/components/PhotoEditor.tsx:113 | A loop from 0 below the limit runs ceil(limit / spacing) times. |
| Tiling.PerimeterLayout | src/components/PhotoEditor.tsx:112-122 | Stamp layout: 2 ceil(w / s) + 2 ceil(h / s) stamps. Stamps 2i and 2i+1 are at x = i * s + offset, near the top (y = 15) and the bottom (y = h - 25). The vertical pass follows, at x = 15 and x = w - 25. Corners are not de-duplicated. |
| Tiling.SiteAt | src/components/PhotoEditor.tsx:112-122 | Stamp k alone: in the horizontal pass it sits on the k/2-th loop value near the top or the bottom edge, otherwise on the (k - 2nx)/2-th vertical value near the left or the right edge. |
| Motifs.MotifLayout | src/components/PhotoEditor.tsx:107-184 | Per motif: hearts every 25 pixels with offset 10, stars every 30 with offset 15, flowers every 25 with offset 15. The counts and positions follow the perimeter layout. |
| Motifs.HeartClosed | src/components/PhotoEditor.tsx:125-137 | The heart path starts at (x, y + size/4), its last curve ends there again, and a straight line reaches the tip (x + size/2, y + size). |
| Motifs.HeartInBox | src/components/PhotoEditor.tsx:125-137 | Every point of the heart path, control points included, lies in the size x size box at the stamp site. |
| Motifs.HeartIntegral | src/components/PhotoEditor.tsx:107-137 | At size 12 and integer sites, every heart point has integer coordinates. |
| Motifs.StarShape | src/components/PhotoEditor.tsx:156-167 | The star moves to vertex 0, draws lines to vertices 1 to 4 at angles 4i pi / 5 at distance `size`, and closes the path. The five angle multipliers are distinct modulo a full turn. |
| Motifs.FlowerMarks | src/components/PhotoEditor.tsx:186-203 | A flower paints exactly five petals of radius size/2 at angles 2i pi / 5 in the petal colour, then one centre dot of radius size/3 in #fbbf24. |
| Motifs.StampRender | src/components/PhotoEditor.tsx:125-203 | One stamp paints exactly its motif's marks under the filter in force. It leaves the motif colour in force, so after the centre dot a flower resets the fill to #a855f7. |
| Motifs.MotifBorderRender | src/components/PhotoEditor.tsx:107-184 | A motif border paints, stamp by stamp in loop order, each stamp's marks under the filter in force. That is PerStamp x (2 ceil(w / s) + 2 ceil(h / s)) marks, and the filter is unchanged. |
| Motifs.MarksLayout | src/components/PhotoEditor.tsx:113-122 | Stamp k's marks are the slice starting at PerStamp x k: the stamps' marks are contiguous and in stamping order. |
| Motifs.MarksOfUniform | src/components/PhotoEditor.tsx:107-184 | Every mark of a motif border is an outline under the filter in force. |
| Rainbow.BandsRender | src/components/PhotoEditor.tsx:209-221 | The rainbow paints band by band in colour order, red first: each band's top, bottom, left and right rectangles in its colour. The filter is unchanged. |
| Rainbow.RainbowRender | src/components/PhotoEditor.tsx:205-222 | Exactly 28 rectangles. Mark 4b + side is rectangle `side` of band b in colour b, and all are boxes under the filter in force. |
| Rainbow.BandsContiguous | src/components/PhotoEditor.tsx:206-211 | Band 0 starts at the edge, each band starts where the previous one ends, and the seventh ends exactly at the inset. |
| Rainbow.BandsMirrored | src/components/PhotoEditor.tsx:211-220 | Band i lies at depth offset(i) from the top and left edges, but at depth offset(6 - i) from the bottom and right edges. Its bottom rectangle starts at height - 40 + offset(i). The bands are not concentric. |
| Rainbow.BandsTileInset | src/components/PhotoEditor.tsx:205-221 | With inset 40 the stripe is 40/7, and every depth in [0, 40) lies in exactly one band. |
| Capture.StartCamera | src/components/PhotoCapture.tsx:20-36 | Streaming comes on exactly when the stream arrives with the video element present (or was already on). Without the video element nothing changes. Only the streaming flag and the attached stream can change. |
| Capture.StopCamera | src/components/PhotoCapture.tsx:38-44 | Streaming goes off only if a stream is attached. Without a stream nothing changes, and in every case only the streaming flag can change. |
| Capture.SoundStep | src/components/PhotoCapture.tsx:46-93 | On either machine, every enabled event keeps the shared invariant. A shown countdown reads 1 to 3. While photos are needed, the photo number is the next photo's. The photos are handed over exactly when there are four, and then the camera is off. Every running interval closed over fewer than four photos. |
| Capture.ShutterMeansIdle | src/components/PhotoCapture.tsx:173-176 | In the corrected machine, the capture button is enabled exactly when the camera streams and no countdown interval is running. |
| Capture.TickEffect | src/components/PhotoCapture.tsx:51-86 | On either machine, a tick of interval k at 1 makes the photos the list k closed over plus the frame. It clears the countdown and removes interval k alone. As written, it also schedules the reset while photos are still needed. At 3 or 2, a tick of any interval only counts down. With no countdown shown it changes nothing. |
| Capture.SnapOutcome | src/components/PhotoCapture.tsx:67-81 | On either machine, the snapping interval's list plus the frame becomes the photos. If that makes four, the camera stops and exactly those four are handed over. Otherwise the photo number becomes count + 1 and the camera stays as it was. As written, one more reset is then pending. |
| Capture.PhotosOnlyGrow | src/components/PhotoCapture.tsx:67-69 | In the corrected machine, each event keeps the photos or appends its frame at the end. |
| Capture.PhotosKept | src/components/PhotoCapture.tsx:67-69 | In the corrected machine, along every valid run, the photos at the start stay a prefix of the photos at the end. A photo once taken is never lost or replaced. |
| Capture.StepPreservesInv | src/components/PhotoCapture.tsx:46-88 | The corrected machine keeps its invariant: the shared invariant and no pending reset. One interval runs exactly while a countdown is shown, and it closed over the current photos. |
| Capture.NoOverlap | src/components/PhotoCapture.tsx:173-176 | In every valid run of the corrected machine, at most one countdown interval runs. One runs exactly while a countdown is shown, and it closed over the current photos. |
| Capture.RoundEffect | src/components/PhotoCapture.tsx:46-88 | On either machine, from a ready state, a press and three ticks of the interval it started form a valid run. This holds even beside stalled intervals. The run appends exactly the frame on screen at the third tick, and the running intervals end as they were. As written, one more reset is pending unless this was the fourth photo. |
| Capture.PausedEffect | src/components/PhotoCapture.tsx:72-76 | On either machine, a photo before the fourth, followed by letting the pending 500 ms timeout fire, appends the frame. It leaves the screen ready for the next press with no reset pending. |
| Capture.FullSession | src/components/PhotoCapture.tsx:46-93 | On either machine, camera start plus four photos with the waits between them is a valid session. It ends with the camera off, no reset pending and the four frames handed over in order. |
| Capture.OverlapWitness | src/components/PhotoCapture.tsx:72-76 | As written, a concrete valid run ends with two countdown intervals running at once. Both closed over the one photo taken, and the countdown shows 3. |
| Capture.StalePhotoLost | src/components/PhotoCapture.tsx:68-69 | As written, after that overlap the two intervals fire in turn and one takes x, giving [f, x]. After the wait and one more press, the remaining older interval, which closed over [f], takes y in turn with the new one. The photos become [f, y], so x is lost. |
| Capture.StalledInterval | src/components/PhotoCapture.tsx:51-86 | As written, a running interval whose countdown was cleared changes nothing and is not cleared while no countdown is shown. A later press revives it: its next tick counts the new countdown down, beside the new interval. |
| Navigation.ViewGuard | src/pages/Index.tsx:23-31 | Which view is shown, each case both ways. The print preview appears exactly on the print step with four photos, and shows them. The capture screen appears exactly on the capture step. Home appears otherwise. |
| Navigation.HandlePhotoCaptureEffect | src/pages/Index.tsx:13-16 | handlePhotoCapture stores exactly the given photos and moves to print. The preview shows them when there are four; otherwise home is shown. |
| Navigation.ResetForgetsPhotos | src/pages/Index.tsx:18-21 | resetToHome shows home with no photos. After it, in any run, the print preview only shows photos that a later onCapture handed over. |
| Navigation.BackRoundTrips | src/pages/Index.tsx:23-29 | Each back button is undone by the way forward. Back from capture then starting again, or back from print then handing the same photos over again, returns the very same state. Neither back button drops the photos. |
| Navigation.StepPreservesInv | src/pages/Index.tsx:13-29 | Every enabled event keeps "the print step holds four photos". |
| Navigation.StepMatchesView | src/pages/Index.tsx:23-31 | In every valid run from the start, the step and the view agree, so the home fallback never hides a print step. |
| Booth.DeliversFour | src/components/PhotoCapture.tsx:77-81 | In every valid capture run of either machine, once onCapture is called it has received four photos, exactly those the screen holds, and the camera is off. |
| Booth.HandOver | src/pages/Index.tsx:13-28 | On either machine, whatever the capture screen hands over, the page accepts and shows in the print preview. |
| Booth.EndToEnd | src/pages/Index.tsx:23-28 | On either machine: from home, start a session, start the camera and take four photos. The print preview shows those four photos in order. |

## Left out

- Pixels. Marks record shapes, colours and filters, not rasterised pixels. A CSS filter's effect on the image is not modelled; its text is an opaque value.
- Star and flower coordinates. Computing them needs `Math.cos` and `Math.sin` on floating point. A point at angle k pi / 5 is the symbolic `Polar(cx, cy, r, k)`, so only vertex and petal order, counts, radii and angle multipliers are stated.
- Image loading. drawPhoto's work happens in `img.onload`; the model is that handler's body, and the load itself (and the missing error handler) is left out. The canvas-ref null check is left out too.
- The editor's save and back buttons. handleSave's `toDataURL` is JPEG encoding, and nothing in the page renders the editor.
- Camera acquisition. `getUserMedia` becomes the `CameraStarted(videoPresent)` and `CameraFailed` events. Track stopping is reduced to the streaming flag.
- Photo capture. Drawing the video frame and encoding it as JPEG become the `frame` carried by a `Tick` event.
- Timing. The 1000 ms interval and the 500 ms timeout are not timed; each firing is an event, and any order of enabled events is allowed.
- React behaviour: rendering, StrictMode's double call of updaters, and effects on unmount (a countdown left running after the screen closes). The `capturedPhotos` closure is modelled as the list each interval keeps. The `stopCamera` and `onCapture` closures are taken to be the current ones, which they are, since they never change.
- Capture.Enabled: once the photos are handed over, no further event is modelled, because the page then replaces the capture screen.
- The print preview component: printing, downloads, clipboard and toasts. Its only link to the model is the photos it receives.
- JSX markup, styling and the text of the screens.
- Floating point. Coordinates, the rainbow's stripe width `40 / 7` and its offsets are exact `real`s, not JavaScript doubles. In doubles the top and left offsets still tile: `6 * (40 / 7) + 40 / 7` comes out as exactly 40. The bottom and right positions `dimension - 40 + offset` agree with the stated ones only up to rounding below 1e-12 pixels, so adjacent bands there may overlap or leave a gap of that size.

## Findings

| source | as written | input that shows it | evidently intended | confidence | as-written member | corrected member |
|---|---|---|---|---|---|---|
| src/components/PhotoCapture.tsx:72-76 | After photos 1 to 3, a 500 ms timeout sets the countdown to null whatever countdown is running then. A shutter press inside that window starts a countdown the timeout wipes, while its interval keeps running. It changes nothing while no countdown is shown, and the button is enabled again. A third press then starts a second interval, and both count down the shared countdown. The two intervals can then lose photos (next row). | Camera started; shutter; three ticks (photo 1); shutter; the 500 ms timeout; shutter. This ends with two intervals running and the countdown at 3 (Capture.OverlapWitness). | No timeout. The updater already returns null when it takes the photo, so the countdown is cleared without it, and at most one interval ever runs. | not executed | Capture.OverlapWitness | Capture.NoOverlap |
| src/components/PhotoCapture.tsx:68-69 | The interval callback appends its photo to the `capturedPhotos` of the render that started it, not to the current photos. After the overlap of the row above, the older interval snaps with an outdated list, so a photo taken in between is replaced. | The run of the row above; then three ticks, alternating between the intervals, taking x (photos [f, x]); then the 500 ms timeout, a press and three alternating ticks of the older and the new interval, the older one taking y. The photos are [f, y] and x is lost (Capture.StalePhotoLost). | Every photo taken is kept. With one interval at a time (row above), the list an interval closed over is always the current one. | not executed | Capture.StalePhotoLost | Capture.PhotosKept |

=== FILE: booth.dfy ===
/** The capture screen and the page together: what the capture screen hands
    over is what the print step receives. Every statement holds for the
    capture screen as written and for its corrected version alike. */
module Booth {
  import Capture
  import Navigation

  /** The capture screen hands over only complete sessions: in any valid run,
      once onCapture has been called it received four photos, exactly the
      ones the screen then holds, and the camera is off. (As written, these
      need not be the last four frames taken: see Capture.StalePhotoLost.) */
  lemma DeliversFour(es: seq<Capture.Event>, withReset: bool)
    requires Capture.Valid(Capture.Initial, es, withReset)
    ensures var s := Capture.Run(Capture.Initial, es, withReset);
      s.delivered.Some? ==> s.delivered.value == s.photos && |s.delivered.value| == 4 && !s.streaming
  {
    Capture.InitialInv();
    Capture.RunSound(Capture.Initial, es, withReset);
  }

  /** Whatever the capture screen hands over, the page may accept: it shows
      the print preview with exactly those photos. */
  lemma HandOver(a: Navigation.App, es: seq<Capture.Event>, withReset: bool)
    requires Navigation.ViewOf(a) == Navigation.CaptureView
    requires Capture.Valid(Capture.Initial, es, withReset)
    requires Capture.Run(Capture.Initial, es, withReset).delivered.Some?
    ensures var got := Capture.Run(Capture.Initial, es, withReset).delivered.value;
      && Navigation.Enabled(a, Navigation.Captured(got))
      && Navigation.ViewOf(Navigation.Apply(a, Navigation.Captured(got))) == Navigation.PrintView(got)
  {
    DeliversFour(es, withReset);
    var got := Capture.Run(Capture.Initial, es, withReset).delivered.value;
    Navigation.HandlePhotoCaptureEffect(a, got);
  }

  /** The booth end to end: from the home page, start a session, let the
      camera start and take four photos, and the print preview shows those
      four photos in the order they were taken. */
  lemma EndToEnd(p: seq<Capture.Photo>, withReset: bool)
    requires |p| == 4
    ensures var s := Capture.Run(Capture.Initial, Capture.FourPhotos(p, withReset), withReset);
      var a := Navigation.Apply(Navigation.Initial, Navigation.StartSession);
      && Capture.Valid(Capture.Initial, Capture.FourPhotos(p, withReset), withReset)
      && s.delivered == Capture.Some(p)
      && Navigation.ViewOf(a) == Navigation.CaptureView
      && Navigation.ViewOf(Navigation.Apply(a, Navigation.Captured(s.delivered.value))) == Navigation.PrintView(p)
  {
    Capture.FullSession(p, withReset);
  }
}

=== FILE: canvas.dfy ===
/** A model of the subset of the 2D canvas drawing context the photo editor uses.
    Drawing calls are data (`Command`); `Render` gives them meaning as the list
    of `Mark`s they paint, each recording the fill colour and the filter that
    were in force when it was painted. Pixels are not modelled. */
module Canvas {

  /** A point. `Polar(cx, cy, r, k)` is the point at distance `r` from
      `(cx, cy)` in direction `k * pi / 5`; its Cartesian coordinates need
      trigonometry and are left symbolic. */
  datatype Point =
    | Pt(x: real, y: real)
    | Polar(cx: real, cy: real, radius: real, fifths: nat)

  datatype Rect = Rect(x: real, y: real, w: real, h: real)

  /** Path-building calls; `Circle` is `arc(c, r, 0, 2 * pi)`. */
  datatype PathOp =
    | MoveTo(p: Point)
    | LineTo(p: Point)
    | QuadTo(control: Point, end: Point)
    | Circle(center: Point, radius: real)
    | ClosePath

  datatype Command =
    | Resize(w: nat, h: nat)     // assigning canvas.width / canvas.height
    | SetFill(color: string)     // ctx.fillStyle = color
    | SetFilter(css: string)     // ctx.filter = css
    | FillRect(r: Rect)
    | DrawImage(r: Rect)
    | BeginPath
    | Path(op: PathOp)
    | Fill

  /** The drawing state the commands above read and write. */
  datatype State = State(fill: string, filter: string, path: seq<PathOp>)

  const DefaultFill := "#000000"
  const NoFilter := "none"

  /** The state every canvas context has after creation or a resize. */
  const Fresh := State(DefaultFill, NoFilter, [])

  datatype Shape = Box(r: Rect) | Picture(r: Rect) | Outline(ops: seq<PathOp>)

  /** Something painted: a shape with the fill colour and filter in force. */
  datatype Mark = Mark(shape: Shape, fill: string, filter: string)

  /** Decoration painted under filter `f`: every mark carries `f`, and none
      of them is a picture. */
  predicate DecorUnder(ms: seq<Mark>, f: string)
  {
    forall k :: 0 <= k < |ms| ==> ms[k].filter == f && !ms[k].shape.Picture?
  }

  function Exec(st: State, c: Command): State
  {
    match c
    case Resize(_, _) => Fresh
    case SetFill(color) => st.(fill := color)
    case SetFilter(css) => st.(filter := css)
    case BeginPath => st.(path := [])
    case Path(op) => st.(path := st.path + [op])
    case _ => st
  }

  function Paint(st: State, c: Command): seq<Mark>
  {
    match c
    case FillRect(r) => [Mark(Box(r), st.fill, st.filter)]
    case DrawImage(r) => [Mark(Picture(r), st.fill, st.filter)]
    case Fill => [Mark(Outline(st.path), st.fill, st.filter)]
    case _ => []
  }

  /** The state after running `cmds` from `st`. */
  function Final(st: State, cmds: seq<Command>): State
    decreases |cmds|
  {
    if cmds == [] then st else Final(Exec(st, cmds[0]), cmds[1..])
  }

  /** Everything `cmds` paints, in painting order. */
  function Render(st: State, cmds: seq<Command>): seq<Mark>
    decreases |cmds|
  {
    if cmds == [] then [] else Paint(st, cmds[0]) + Render(Exec(st, cmds[0]), cmds[1..])
  }

  /** Running `a + b` is running `a`, then `b` from where `a` left off. */
  lemma {:induction false} RenderAppend(st: State, a: seq<Command>, b: seq<Command>)
    ensures Render(st, a + b) == Render(st, a) + Render(Final(st, a), b)
    ensures Final(st, a + b) == Final(Final(st, a), b)
    decreases |a|
  {
    if a == [] {
      assert a + b == b;
    } else {
      assert (a + b)[0] == a[0];
      assert (a + b)[1..] == a[1..] + b;
      RenderAppend(Exec(st, a[0]), a[1..], b);
    }
  }

  /** A single command paints what Paint says and moves the state by Exec. */
  lemma RenderOne(st: State, c: Command)
    ensures Render(st, [c]) == Paint(st, c)
    ensures Final(st, [c]) == Exec(st, c)
  {
    assert [c][1..] == [];
  }

  /** The path ops as path-building commands. */
  function Trace(ops: seq<PathOp>): seq<Command>
  {
    if ops == [] then [] else [Path(ops[0])] + Trace(ops[1..])
  }

  /** `beginPath(); <ops>; fill()` paints exactly the outline `ops`, in the
      current fill and filter, and leaves colour and filter unchanged. */
  lemma {:induction false} FilledPath(st: State, ops: seq<PathOp>)
    ensures Render(st, [BeginPath] + Trace(ops) + [Fill]) == [Mark(Outline(ops), st.fill, st.filter)]
    ensures Final(st, [BeginPath] + Trace(ops) + [Fill]) == st.(path := ops)
  {
    var st1 := st.(path := []);
    var x := [BeginPath] + Trace(ops);
    assert Render(st, [BeginPath]) == [] && Final(st, [BeginPath]) == st1 by {
      assert [BeginPath][1..] == [];
    }
    TraceExtends(st1, ops);
    assert st1.path + ops == ops;
    RenderAppend(st, [BeginPath], Trace(ops));
    assert Render(st, x) == [] && Final(st, x) == st.(path := ops);
    assert Render(Final(st, x), [Fill]) == [Mark(Outline(ops), st.fill, st.filter)] by {
      assert [Fill][1..] == [];
    }
    assert Final(Final(st, x), [Fill]) == st.(path := ops) by {
      assert [Fill][1..] == [];
    }
    RenderAppend(st, x, [Fill]);
  }

  /** Path-building commands paint nothing and append their ops to the path. */
  lemma {:induction false} TraceExtends(st: State, ops: seq<PathOp>)
    ensures Render(st, Trace(ops)) == []
    ensures Final(st, Trace(ops)) == st.(path := st.path + ops)
    decreases |ops|
  {
    if ops == [] {
      assert st.path + ops == st.path;
    } else {
      var cmds := Trace(ops);
      assert cmds == [Path(ops[0])] + Trace(ops[1..]);
      assert cmds[0] == Path(ops[0]);
      assert cmds[1..] == Trace(ops[1..]);
      TraceExtends(Exec(st, Path(ops[0])), ops[1..]);
      assert st.path + [ops[0]] + ops[1..] == st.path + ops;
    }
  }

  /** One fillRect call per rectangle, in order. */
  function FillRects(rs: seq<Rect>): seq<Command>
  {
    if rs == [] then [] else [FillRect(rs[0])] + FillRects(rs[1..])
  }

  /** fillRect calls paint their rectangles, in order, in the current fill
      and filter, and change no state. */
  lemma {:induction false} FillRectsRender(st: State, rs: seq<Rect>)
    ensures |Render(st, FillRects(rs))| == |rs|
    ensures forall k :: 0 <= k < |rs| ==> Render(st, FillRects(rs))[k] == Mark(Box(rs[k]), st.fill, st.filter)
    ensures Final(st, FillRects(rs)) == st
    decreases |rs|
  {
    if rs != [] {
      FillRectsRender(st, rs[1..]);
      var ms := Render(st, FillRects(rs));
      forall k | 1 <= k < |rs|
        ensures ms[k] == Mark(Box(rs[k]), st.fill, st.filter)
      {
        assert rs[1..][k - 1] == rs[k];
      }
    }
  }
}

=== FILE: capture.dfy ===
/** The capture screen as a state machine: the camera's streaming flag, the
    3-2-1 countdown driven by a one-second interval timer, the photos taken
    so far and the hand-over of the fourth photo. Every timer firing and every
    button press is one event. The live countdown intervals, each with the
    list of photos its callback closed over, and the number of pending 500 ms
    reset timeouts are part of the state, so that overlapping countdowns and
    their effect on the photos can be stated. */
module Capture {

  datatype Option<T> = None | Some(value: T)

  /** A captured frame (a JPEG data URL in the application; opaque here). */
  type Photo = string

  /** Photos per session. */
  const Needed: nat := 4
  /** The countdown starts here. */
  const CountFrom: nat := 3

  /** The two machines modelled: the component as written schedules a
      500 ms timeout after each of photos 1 to 3 that clears the countdown;
      the corrected component schedules none. */
  const AsWritten := true
  const Corrected := false

  datatype Session = Session(
    streaming: bool,                 // isStreaming
    attached: bool,                  // the video element holds a stream
    countdown: Option<nat>,          // countdown (null is None)
    photos: seq<Photo>,              // capturedPhotos
    photoNumber: nat,                // currentPhotoNumber
    intervals: seq<seq<Photo>>,      // running countdown intervals, oldest first,
                                     // each with the capturedPhotos its callback closed over
    resets: nat,                     // 500 ms timeouts not yet fired
    delivered: Option<seq<Photo>>)   // what onCapture received, if called

  const Initial := Session(false, false, None, [], 1, [], 0, None)

  datatype Event =
    | CameraStarted(videoPresent: bool)  // getUserMedia resolved; is the video element mounted?
    | CameraFailed                       // getUserMedia rejected
    | Shutter(refsPresent: bool)         // capture button; are the video and canvas elements mounted?
    | Tick(interval: nat, frame: Photo)  // one firing of running interval number `interval`; `frame` is what the video shows
    | ResetTimeout                       // one 500 ms timeout firing

  /** The capture button is enabled only while streaming with no countdown shown. */
  predicate CanShutter(s: Session)
  {
    s.streaming && s.countdown.None?
  }

  /** The restart button is enabled only while not streaming. */
  predicate CanRestart(s: Session)
  {
    !s.streaming
  }

  /** Which events can happen: buttons only when enabled, timers only when
      running, and nothing once the photos have been handed over (the
      screen is then replaced by the print preview). */
  predicate Enabled(s: Session, e: Event)
  {
    s.delivered.None? &&
    match e
    case CameraStarted(_) => CanRestart(s)
    case CameraFailed => CanRestart(s)
    case Shutter(_) => CanShutter(s)
    case Tick(k, _) => k < |s.intervals|
    case ResetTimeout => s.resets > 0
  }

  /** startCamera's effect once getUserMedia has answered: only the
      streaming flag and the attached stream can change. */
  function StartCamera(s: Session, videoPresent: bool): (t: Session)
    ensures t.streaming <==> s.streaming || videoPresent
    ensures videoPresent ==> t.attached
    ensures !videoPresent ==> t == s
    ensures t == s.(streaming := t.streaming, attached := t.attached)
  {
    if videoPresent then s.(attached := true, streaming := true) else s
  }

  /** stopCamera: the streaming flag drops only if a stream is attached, and
      nothing else changes. */
  function StopCamera(s: Session): (t: Session)
    ensures t.streaming <==> s.streaming && !s.attached
    ensures !s.attached ==> t == s
    ensures t == s.(streaming := t.streaming)
  {
    if s.attached then s.(streaming := false) else s
  }

  /** The countdown updater's ordinary branch: one step down, and null for
      null (or for 0, which JavaScript also treats as false). */
  function CountDown(prev: Option<nat>): Option<nat>
  {
    match prev
    case Some(n) => if n > 0 then Some(n - 1) else None
    case None => None
  }

  /** The running intervals once interval `k` has been cleared. */
  function Without(xs: seq<seq<Photo>>, k: nat): (r: seq<seq<Photo>>)
    requires k < |xs|
    ensures |r| == |xs| - 1
    ensures forall x :: x in r ==> x in xs
  {
    xs[..k] + xs[k + 1..]
  }

  /** The updater's branch for 1, run by interval `k`: take the photo and
      append it to the photos that interval's callback closed over, stop the
      interval, clear the countdown; then either number the next photo
      (scheduling the 500 ms reset when `withReset`) or stop the camera and
      hand the four photos over. */
  function Snap(s: Session, k: nat, frame: Photo, withReset: bool): Session
    requires k < |s.intervals|
  {
    var newPhotos := s.intervals[k] + [frame];
    var s1 := s.(photos := newPhotos, countdown := None, intervals := Without(s.intervals, k));
    if |newPhotos| < Needed then
      s1.(photoNumber := |newPhotos| + 1, resets := if withReset then s1.resets + 1 else s1.resets)
    else
      StopCamera(s1).(delivered := Some(newPhotos))
  }

  /** One event, on the machine as written (`withReset`) or corrected. */
  function Apply(s: Session, e: Event, withReset: bool): Session
  {
    match e
    case CameraStarted(v) => StartCamera(s, v)
    case CameraFailed => s
    case Shutter(refs) =>
      if refs then s.(countdown := Some(CountFrom), intervals := s.intervals + [s.photos]) else s
    case Tick(k, frame) =>
      if k >= |s.intervals| then s
      else if s.countdown == Some(1) then Snap(s, k, frame, withReset)
      else s.(countdown := CountDown(s.countdown))
    case ResetTimeout =>
      if s.resets > 0 then s.(countdown := None, resets := s.resets - 1) else s
  }

  /** Running a sequence of events. */
  function Run(s: Session, es: seq<Event>, withReset: bool): Session
    decreases |es|
  {
    if es == [] then s else Run(Apply(s, es[0], withReset), es[1..], withReset)
  }

  /** Every event of `es` is enabled when it happens. */
  predicate Valid(s: Session, es: seq<Event>, withReset: bool)
    decreases |es|
  {
    es == [] || (Enabled(s, es[0]) && Valid(Apply(s, es[0], withReset), es[1..], withReset))
  }

  // ---------------------------------------------------------------- invariants

  /** What both machines keep true: a shown countdown reads 1..3; while
      photos are needed, the photo number is the next photo's; the photos
      are handed over exactly when there are four, then with no countdown
      and the camera off; streaming needs an attached stream; every running
      interval closed over fewer than four photos. */
  predicate Sound(s: Session)
  {
    && (s.countdown.Some? ==> 1 <= s.countdown.value <= CountFrom)
    && |s.photos| <= Needed
    && (|s.photos| < Needed ==> s.photoNumber == |s.photos| + 1)
    && (s.delivered.Some? <==> |s.photos| == Needed)
    && (s.delivered.Some? ==> s.delivered.value == s.photos && s.countdown.None?)
    && (|s.photos| == Needed ==> !s.streaming)
    && (s.streaming ==> s.attached)
    && (forall snap :: snap in s.intervals ==> |snap| < Needed)
  }

  /** What the corrected machine keeps on top: no reset is pending, and one
      countdown interval runs exactly while a countdown is shown (none
      otherwise), closed over the current photos. */
  predicate Inv(s: Session)
  {
    && Sound(s)
    && s.resets == 0
    && s.intervals == (if s.countdown.Some? then [s.photos] else [])
  }

  lemma InitialInv()
    ensures Inv(Initial)
  {
  }

  /** Every enabled event of either machine keeps Sound. */
  lemma SoundStep(s: Session, e: Event, withReset: bool)
    requires Sound(s) && Enabled(s, e)
    ensures Sound(Apply(s, e, withReset))
  {
  }

  lemma {:induction false} RunSound(s: Session, es: seq<Event>, withReset: bool)
    requires Sound(s) && Valid(s, es, withReset)
    ensures Sound(Run(s, es, withReset))
    decreases |es|
  {
    if es != [] {
      SoundStep(s, es[0], withReset);
      RunSound(Apply(s, es[0], withReset), es[1..], withReset);
    }
  }

  /** Every enabled event of the corrected machine keeps the invariant. */
  lemma StepPreservesInv(s: Session, e: Event)
    requires Inv(s) && Enabled(s, e)
    ensures Inv(Apply(s, e, Corrected))
  {
    SoundStep(s, e, Corrected);
  }

  /** The invariant holds along every valid run of the corrected machine. */
  lemma {:induction false} RunPreservesInv(s: Session, es: seq<Event>)
    requires Inv(s) && Valid(s, es, Corrected)
    ensures Inv(Run(s, es, Corrected))
    decreases |es|
  {
    if es != [] {
      StepPreservesInv(s, es[0]);
      RunPreservesInv(Apply(s, es[0], Corrected), es[1..]);
    }
  }

  /** Countdowns never overlap in the corrected machine: in any valid run
      from the start, at most one countdown interval is running, one is
      running exactly while a countdown is shown, and it closed over the
      current photos. */
  lemma NoOverlap(es: seq<Event>)
    requires Valid(Initial, es, Corrected)
    ensures var t := Run(Initial, es, Corrected);
      && |t.intervals| <= 1
      && (|t.intervals| == 1 <==> t.countdown.Some?)
      && (forall snap :: snap in t.intervals ==> snap == t.photos)
  {
    InitialInv();
    RunPreservesInv(Initial, es);
  }

  /** In the corrected machine the capture button's guard means "no
      countdown is running": it is enabled exactly when the camera streams
      and no interval is live. (OverlapWitness shows the program's machine
      enabling it beside a live interval.) */
  lemma ShutterMeansIdle(s: Session, refs: bool)
    requires Inv(s) && s.delivered.None?
    ensures Enabled(s, Shutter(refs)) <==> s.streaming && s.intervals == []
  {
  }

  // ---------------------------------------------------------------- the defect

  /** Start the camera, take photo `f`, press the shutter again within
      500 ms, let the pending timeout fire, and press once more. */
  function OverlapRun(f: Photo): seq<Event>
  {
    [CameraStarted(true), Shutter(true), Tick(0, f), Tick(0, f), Tick(0, f),
     Shutter(true), ResetTimeout, Shutter(true)]
  }

  /** As written, the overlap happens: the pending timeout clears the
      countdown of the second press while its interval keeps running, which
      re-enables the button; the third press starts a second interval beside
      the first. Both closed over the one photo taken. */
  lemma OverlapWitness(f: Photo)
    ensures Valid(Initial, OverlapRun(f), AsWritten)
    ensures Run(Initial, OverlapRun(f), AsWritten)
         == Session(true, true, Some(CountFrom), [f], 2, [[f], [f]], 0, None)
  {
    var w := AsWritten;
    var s0 := Initial;
    var s1 := Apply(s0, CameraStarted(true), w);
    var s2 := Apply(s1, Shutter(true), w);
    var s3 := Apply(s2, Tick(0, f), w);
    var s4 := Apply(s3, Tick(0, f), w);
    var s5 := Apply(s4, Tick(0, f), w);
    assert s5.photos == [f] && s5.resets == 1 && s5.intervals == [] && s5.countdown.None?;
    var s6 := Apply(s5, Shutter(true), w);
    var s7 := Apply(s6, ResetTimeout, w);
    assert s7.countdown.None? && s7.intervals == [[f]] && s7.streaming;
    var s8 := Apply(s7, Shutter(true), w);
    var es := OverlapRun(f);
    var ss := [s0, s1, s2, s3, s4, s5, s6, s7, s8];
    forall i | 0 <= i < 8
      ensures Enabled(ss[i], es[i]) && Apply(ss[i], es[i], w) == ss[i + 1]
    {
    }
    Trace(ss, es, 0, w);
  }

  /** As written, the overlap loses photos: each interval appends to the
      photos its callback closed over, not to the current ones. After the
      overlapping run the two intervals fire in turn, and the first takes
      photo `x`, giving [f, x]; the user waits, presses again, and the
      remaining older interval, which closed over [f], takes `y` in turn
      with the new one: the photos are [f, y] and `x` is gone. */
  lemma StalePhotoLost(f: Photo, x: Photo, y: Photo)
    ensures var first := OverlapRun(f) + [Tick(0, x), Tick(1, x), Tick(0, x)];
      var later := [ResetTimeout, Shutter(true), Tick(0, y), Tick(1, y), Tick(0, y)];
      && Valid(Initial, first + later, AsWritten)
      && Run(Initial, first, AsWritten).photos == [f, x]
      && Run(Initial, first + later, AsWritten).photos == [f, y]
  {
    var w := AsWritten;
    OverlapWitness(f);
    var s8 := Run(Initial, OverlapRun(f), w);
    var mid := [Tick(0, x), Tick(1, x), Tick(0, x)];
    var s9 := Apply(s8, mid[0], w);
    var s10 := Apply(s9, mid[1], w);
    var s11 := Apply(s10, mid[2], w);
    assert s11 == Session(true, true, None, [f, x], 3, [[f]], 1, None);
    var ms := [s8, s9, s10, s11];
    forall i | 0 <= i < 3
      ensures Enabled(ms[i], mid[i]) && Apply(ms[i], mid[i], w) == ms[i + 1]
    {
    }
    Trace(ms, mid, 0, w);
    var later := [ResetTimeout, Shutter(true), Tick(0, y), Tick(1, y), Tick(0, y)];
    var s12 := Apply(s11, later[0], w);
    var s13 := Apply(s12, later[1], w);
    var s14 := Apply(s13, later[2], w);
    var s15 := Apply(s14, later[3], w);
    var s16 := Apply(s15, later[4], w);
    assert s16.photos == [f, y];
    var ls := [s11, s12, s13, s14, s15, s16];
    forall i | 0 <= i < 5
      ensures Enabled(ls[i], later[i]) && Apply(ls[i], later[i], w) == ls[i + 1]
    {
    }
    Trace(ls, later, 0, w);
    RunAppend(Initial, OverlapRun(f), mid, w);
    RunAppend(Initial, OverlapRun(f) + mid, later, w);
  }

  /** As written, a running interval whose countdown was cleared is stalled:
      while no countdown is shown its ticks change nothing and it is not
      cleared. A later press revives it: the countdown it reads is shared, so
      its next tick counts the new countdown down beside the new interval. */
  lemma StalledInterval(s: Session, k: nat, f: Photo)
    requires s.countdown.None? && k < |s.intervals|
    ensures Apply(s, Tick(k, f), AsWritten) == s
    ensures var t := Apply(Apply(s, Shutter(true), AsWritten), Tick(k, f), AsWritten);
      t.countdown == Some(CountFrom - 1) && t.intervals == s.intervals + [s.photos]
  {
  }

  // ---------------------------------------------------------------- steps

  /** A tick of interval `k`, on either machine: at 1 it appends the frame
      to the photos that interval closed over, clears the countdown and
      stops that interval, and as written schedules the reset when more
      photos are needed; at 3 or 2 it only counts down; with no countdown
      shown it changes nothing. */
  lemma TickEffect(s: Session, k: nat, f: Photo, withReset: bool)
    requires Sound(s) && Enabled(s, Tick(k, f))
    ensures var t := Apply(s, Tick(k, f), withReset);
      && (s.countdown == Some(1) ==>
            && t.photos == s.intervals[k] + [f] && t.countdown.None?
            && t.intervals == s.intervals[..k] + s.intervals[k + 1..]
            && t.resets == s.resets + (if withReset && |t.photos| < Needed then 1 else 0))
      && (s.countdown.Some? && s.countdown.value > 1 ==> t == s.(countdown := Some(s.countdown.value - 1)))
      && (s.countdown.None? ==> t == s)
  {
  }

  /** Completion, on either machine: the photo that makes four stops the
      camera and hands over exactly the four photos; any earlier photo moves
      the photo number on, leaves the camera as it was and, as written,
      schedules one more reset. */
  lemma SnapOutcome(s: Session, k: nat, f: Photo, withReset: bool)
    requires Sound(s) && Enabled(s, Tick(k, f)) && s.countdown == Some(1)
    ensures var t := Apply(s, Tick(k, f), withReset);
      && t.photos == s.intervals[k] + [f]
      && |t.photos| <= Needed
      && (|t.photos| == Needed ==> !t.streaming && t.delivered == Some(t.photos) && |t.delivered.value| == 4)
      && (|t.photos| < Needed ==>
            && t.photoNumber == |t.photos| + 1 && t.delivered.None? && t.streaming == s.streaming
            && t.resets == s.resets + (if withReset then 1 else 0))
  {
  }

  /** In the corrected machine no event changes earlier photos: each keeps
      them or appends its frame. */
  lemma PhotosOnlyGrow(s: Session, e: Event)
    requires Inv(s)
    ensures var t := Apply(s, e, Corrected);
      || t.photos == s.photos
      || (e.Tick? && s.countdown == Some(1) && t.photos == s.photos + [e.frame])
  {
  }

  /** In the corrected machine a photo, once taken, stays: along every valid
      run the photos only grow at the end. (StalePhotoLost is the program's
      counterpart.) */
  lemma {:induction false} PhotosKept(s: Session, es: seq<Event>)
    requires Inv(s) && Valid(s, es, Corrected)
    ensures s.photos <= Run(s, es, Corrected).photos
    decreases |es|
  {
    if es != [] {
      var t := Apply(s, es[0], Corrected);
      PhotosOnlyGrow(s, es[0]);
      StepPreservesInv(s, es[0]);
      PhotosKept(t, es[1..]);
      var u := Run(t, es[1..], Corrected);
      assert s.photos == t.photos[..|s.photos|];
      assert t.photos == u.photos[..|t.photos|];
    }
  }

  // ---------------------------------------------------------------- sessions

  /** One photo: press the shutter, then three firings of the interval the
      press started, which is running interval number `k`; `f` is the frame
      on screen at the third. */
  function Round(k: nat, f: Photo): seq<Event>
  {
    [Shutter(true), Tick(k, f), Tick(k, f), Tick(k, f)]
  }

  /** A round from a ready state (streaming, no countdown, fewer than four
      photos), on either machine, is valid and appends exactly its frame,
      even beside stalled intervals; the running intervals are back as they
      were, and as written one more reset is pending unless the round
      completed the session. */
  lemma RoundEffect(s: Session, f: Photo, withReset: bool)
    requires Sound(s) && s.streaming && s.countdown.None? && |s.photos| < Needed
    ensures Valid(s, Round(|s.intervals|, f), withReset)
    ensures var t := Run(s, Round(|s.intervals|, f), withReset);
      && Sound(t)
      && t.photos == s.photos + [f]
      && t.countdown.None?
      && t.intervals == s.intervals
      && (|t.photos| < Needed ==>
            t.streaming && t.delivered.None? && t.resets == s.resets + (if withReset then 1 else 0))
      && (|t.photos| == Needed ==> !t.streaming && t.delivered == Some(t.photos) && t.resets == s.resets)
      && (Inv(s) && !withReset ==> Inv(t))
  {
    var w := withReset;
    var k := |s.intervals|;
    var es := Round(k, f);
    var s1 := Apply(s, Shutter(true), w);
    var s2 := Apply(s1, Tick(k, f), w);
    var s3 := Apply(s2, Tick(k, f), w);
    var s4 := Apply(s3, Tick(k, f), w);
    assert s1.intervals == s.intervals + [s.photos] && s1.intervals[k] == s.photos;
    assert s1.countdown == Some(3) && s2.countdown == Some(2) && s3.countdown == Some(1);
    assert s3.intervals == s1.intervals;
    assert Without(s1.intervals, k) == s.intervals;
    SoundStep(s, Shutter(true), w);
    SoundStep(s1, Tick(k, f), w);
    SoundStep(s2, Tick(k, f), w);
    SoundStep(s3, Tick(k, f), w);
    var ss := [s, s1, s2, s3, s4];
    forall i | 0 <= i < 4
      ensures Enabled(ss[i], es[i]) && Apply(ss[i], es[i], w) == ss[i + 1]
    {
    }
    Trace(ss, es, 0, w);
  }

  /** The wait after a photo: as written, the user lets the 500 ms timeout
      fire before the next press; the corrected machine has none to wait for. */
  function Pause(withReset: bool): seq<Event>
  {
    if withReset then [ResetTimeout] else []
  }

  /** A photo and the wait after it. */
  function Paused(k: nat, f: Photo, withReset: bool): seq<Event>
  {
    Round(k, f) + Pause(withReset)
  }

  /** A photo that does not complete the session, followed by the wait,
      leaves the screen ready for the next one with no reset pending. */
  lemma PausedEffect(s: Session, f: Photo, withReset: bool)
    requires Sound(s) && s.streaming && s.countdown.None? && |s.photos| < Needed - 1 && s.resets == 0
    ensures Valid(s, Paused(|s.intervals|, f, withReset), withReset)
    ensures var t := Run(s, Paused(|s.intervals|, f, withReset), withReset);
      && Sound(t) && t.streaming && t.countdown.None? && t.resets == 0
      && t.photos == s.photos + [f] && t.intervals == s.intervals
  {
    var w := withReset;
    var k := |s.intervals|;
    RoundEffect(s, f, w);
    var u := Run(s, Round(k, f), w);
    if w {
      var v := Apply(u, ResetTimeout, w);
      assert Enabled(u, ResetTimeout);
      assert [ResetTimeout][1..] == [];
      assert Run(u, [ResetTimeout], w) == v;
    }
    RunAppend(s, Round(k, f), Pause(w), w);
  }

  /** A whole session: the camera starts, then four photos, with the waits
      between them; each photo's interval is the only one running. */
  function FourPhotos(p: seq<Photo>, withReset: bool): seq<Event>
    requires |p| == Needed
  {
    [CameraStarted(true)] + Paused(0, p[0], withReset) + Paused(0, p[1], withReset)
      + Paused(0, p[2], withReset) + Round(0, p[3])
  }

  /** Ready for the next press, with nothing left over from earlier photos. */
  predicate Ready(s: Session)
  {
    Sound(s) && s.streaming && s.countdown.None? && s.resets == 0 && s.intervals == []
  }

  /** A valid run that leaves the screen ready, extended by one paused photo
      that does not complete the session, stays valid and ready, with the
      frame appended. */
  lemma PausedAfter(a: seq<Event>, f: Photo, withReset: bool)
    requires Valid(Initial, a, withReset) && Ready(Run(Initial, a, withReset))
    requires |Run(Initial, a, withReset).photos| < Needed - 1
    ensures Valid(Initial, a + Paused(0, f, withReset), withReset)
    ensures Ready(Run(Initial, a + Paused(0, f, withReset), withReset))
    ensures Run(Initial, a + Paused(0, f, withReset), withReset).photos == Run(Initial, a, withReset).photos + [f]
  {
    PausedEffect(Run(Initial, a, withReset), f, withReset);
    RunAppend(Initial, a, Paused(0, f, withReset), withReset);
  }

  /** A valid run that leaves the screen ready with three photos, extended
      by the last round, hands over the three photos and the frame. */
  lemma LastRoundAfter(a: seq<Event>, f: Photo, withReset: bool)
    requires Valid(Initial, a, withReset) && Ready(Run(Initial, a, withReset))
    requires |Run(Initial, a, withReset).photos| == Needed - 1
    ensures Valid(Initial, a + Round(0, f), withReset)
    ensures var t := Run(Initial, a + Round(0, f), withReset);
      !t.streaming && t.resets == 0 && t.delivered == Some(Run(Initial, a, withReset).photos + [f])
  {
    RoundEffect(Run(Initial, a, withReset), f, withReset);
    RunAppend(Initial, a, Round(0, f), withReset);
  }

  /** A whole session, on either machine (so also as written), is valid and
      ends with the camera off, no reset pending, and exactly the four
      frames handed over, in order. */
  lemma FullSession(p: seq<Photo>, withReset: bool)
    requires |p| == Needed
    ensures var es := FourPhotos(p, withReset);
      && Valid(Initial, es, withReset)
      && !Run(Initial, es, withReset).streaming
      && Run(Initial, es, withReset).resets == 0
      && Run(Initial, es, withReset).delivered == Some(p)
  {
    var w := withReset;
    var e0 := [CameraStarted(true)];
    assert e0[1..] == [];
    assert Run(Initial, e0, w) == Apply(Initial, CameraStarted(true), w);
    assert Valid(Initial, e0, w);
    var a1 := e0 + Paused(0, p[0], w);
    var a2 := a1 + Paused(0, p[1], w);
    var a3 := a2 + Paused(0, p[2], w);
    PausedAfter(e0, p[0], w);
    PausedAfter(a1, p[1], w);
    PausedAfter(a2, p[2], w);
    assert Run(Initial, a3, w).photos + [p[3]] == p;
    LastRoundAfter(a3, p[3], w);
  }

  // ---------------------------------------------------------------- runs

  /** A run along a listed sequence of states: if every event is enabled in
      its state and leads to the next, the run is valid and ends in the last. */
  lemma {:induction false} Trace(ss: seq<Session>, es: seq<Event>, i: nat, withReset: bool)
    requires |ss| == |es| + 1 && i <= |es|
    requires forall j :: i <= j < |es| ==> Enabled(ss[j], es[j]) && Apply(ss[j], es[j], withReset) == ss[j + 1]
    ensures Valid(ss[i], es[i..], withReset) && Run(ss[i], es[i..], withReset) == ss[|es|]
    decreases |es| - i
  {
    if i < |es| {
      Trace(ss, es, i + 1, withReset);
      assert es[i..][1..] == es[i + 1..];
    }
  }

  /** Running `a + b` is running `a`, then `b`; both valid makes `a + b` valid. */
  lemma {:induction false} RunAppend(s: Session, a: seq<Event>, b: seq<Event>, withReset: bool)
    ensures Run(s, a + b, withReset) == Run(Run(s, a, withReset), b, withReset)
    ensures Valid(s, a + b, withReset) <== Valid(s, a, withReset) && Valid(Run(s, a, withReset), b, withReset)
    decreases |a|
  {
    if a == [] {
      assert a + b == b;
    } else {
      assert (a + b)[0] == a[0];
      assert (a + b)[1..] == a[1..] + b;
      RunAppend(Apply(s, a[0], withReset), a[1..], b, withReset);
    }
  }
}

=== FILE: editor.dfy ===
/** The photo editor's drawing of one framed photo: a white 800 x 600 canvas,
    the photo inside the border's padding under the chosen colour filter, the
    filter switched off again, and then the border on top. */
module Editor {
  import opened Canvas
  import opened Filters
  import opened Tiling
  import opened Motifs
  import opened Rainbow

  /** The editor always draws on an 800 x 600 canvas. */
  const Width: nat := 800
  const Height: nat := 600
  /** How far every border reaches into the canvas. */
  const BorderWidth: nat := 40

  const White := "white"
  /** The border id meaning "no border". */
  const NoBorder := "none"

  /** The whole canvas. */
  const Full := Rect(0.0, 0.0, Width as real, Height as real)

  /** The border ids drawBorder recognises. */
  const Borders: set<string> := {"hearts", "stars", "flowers", "rainbow"}

  /** Space kept free around the photo for the border. */
  function Padding(border: string): nat
  {
    if border != NoBorder then BorderWidth else 0
  }

  /** Where the photo is drawn: inset by the padding on every side. */
  function PhotoRect(border: string): Rect
  {
    var p := Padding(border);
    Rect(p as real, p as real, (Width - 2 * p) as real, (Height - 2 * p) as real)
  }

  /** The borders drawBorder can draw; `Plain` is what it does for any
      other id: nothing. */
  datatype Frame = Tiled(motif: Motif) | Bands | Plain

  /** drawBorder's switch on the border id. It has no default case. */
  function FrameOf(id: string): Frame
  {
    match id
    case "hearts" => Tiled(Heart)
    case "stars" => Tiled(Star)
    case "flowers" => Tiled(Flower)
    case "rainbow" => Bands
    case _ => Plain
  }

  /** The id naming a frame in the border menu ("none" for Plain). */
  function FrameId(fr: Frame): string
  {
    match fr
    case Tiled(Heart) => "hearts"
    case Tiled(Star) => "stars"
    case Tiled(Flower) => "flowers"
    case Bands => "rainbow"
    case Plain => NoBorder
  }

  /** The switch recognises exactly the four border ids, each names its own
      frame, and the menu ids name every frame. */
  lemma FrameOfIds(id: string, fr: Frame)
    ensures FrameOf(id).Plain? <==> id !in Borders
    ensures id in Borders ==> FrameId(FrameOf(id)) == id
    ensures FrameOf(FrameId(fr)) == fr
  {
  }

  /** The draw calls of a frame on a width-by-height canvas. */
  function FrameCalls(width: nat, height: nat, fr: Frame): seq<Command>
  {
    match fr
    case Tiled(m) => MotifBorder(m, width, height)
    case Bands => RainbowBorder(width as real, height as real, BorderWidth as real)
    case Plain => []
  }

  /** drawBorder: the border's draw calls on a width-by-height canvas. */
  function DrawBorder(width: nat, height: nat, id: string): seq<Command>
  {
    FrameCalls(width, height, FrameOf(id))
  }

  /** Resizing the canvas, then painting it white. */
  const Setup := [Resize(Width, Height), SetFill(White), FillRect(Full)]

  /** The filter assignment made only when a filter other than "none" is chosen. */
  function FilterStep(filter: string): seq<Command>
  {
    if filter != NoFilterId then [SetFilter(FilterCss(filter))] else []
  }

  /** The border drawn only when a border other than "none" is chosen. */
  function BorderStep(border: string): seq<Command>
  {
    if border != NoBorder then DrawBorder(Width, Height, border) else []
  }

  /** drawPhoto's image-load handler: every call it makes on the canvas, in order. */
  function DrawPhoto(border: string, filter: string): seq<Command>
  {
    Setup + FilterStep(filter) + [DrawImage(PhotoRect(border)), SetFilter(NoFilter)] + BorderStep(border)
  }

  /** Marks a frame paints on the editor's canvas. */
  function FrameMarkCount(fr: Frame): nat
  {
    match fr
    case Tiled(Heart) => 112
    case Tiled(Star) => 94
    case Tiled(Flower) => 672
    case Bands => 28
    case Plain => 0
  }

  /** The photo sits at (p, p) and is 800 - 2p by 600 - 2p: 720 x 520 at
      (40, 40) under any border, the full canvas without one. With a border
      its top and left edges meet the inner edge of the rainbow's band 6, and
      its bottom and right edges the inner edge of band 0. */
  lemma PhotoGeometry(border: string)
    ensures border != NoBorder ==> PhotoRect(border) == Rect(40.0, 40.0, 720.0, 520.0)
    ensures border == NoBorder ==> PhotoRect(border) == Full
    ensures var r := PhotoRect(border);
      r.x + r.w + r.x == Width as real && r.y + r.h + r.y == Height as real
    ensures border != NoBorder ==>
      var r := PhotoRect(border);
      var inset := BorderWidth as real;
      && r.x == Offset(inset, 6) + Stripe(inset)
      && r.x + r.w == Width as real - inset + Offset(inset, 0)
      && r.y + r.h == Height as real - inset + Offset(inset, 0)
  {
  }

  /** Choosing "none" as border draws no border, exactly as an unknown id
      does: every id outside the four border ids draws nothing. */
  lemma BorderStepIsDrawBorder(border: string)
    ensures BorderStep(border) == DrawBorder(Width, Height, border)
    ensures border !in Borders ==> BorderStep(border) == []
  {
    FrameOfIds(border, Plain);
    if border == NoBorder {
      assert FrameOf(border) == Plain;
    }
  }

  /** The filter is assigned before the photo is drawn exactly when a filter
      other than "none" is chosen, and it is the filter's CSS text; the photo
      is drawn once, right after, and the filter is reset right after that. */
  lemma FilterScope(border: string, filter: string)
    ensures var cmds := DrawPhoto(border, filter);
      var img := if filter != NoFilterId then 4 else 3;
      && |cmds| > img + 1
      && cmds[..3] == Setup
      && (filter != NoFilterId <==> cmds[3].SetFilter?)
      && (filter != NoFilterId ==> cmds[3] == SetFilter(FilterCss(filter)))
      && cmds[img] == DrawImage(PhotoRect(border))
      && cmds[img + 1] == SetFilter(NoFilter)
      && cmds[img + 2..] == BorderStep(border)
  {
    var cmds := DrawPhoto(border, filter);
    var pre := Setup + FilterStep(filter);
    var img := if filter != NoFilterId then 4 else 3;
    assert |pre| == img;
    assert cmds == pre + [DrawImage(PhotoRect(border)), SetFilter(NoFilter)] + BorderStep(border);
    assert cmds[..3] == pre[..3] == Setup;
    assert cmds[img + 2..] == BorderStep(border);
  }

  /** What a frame paints on the editor's canvas: the number of marks
      (2 x 32 + 2 x 24 = 112 hearts, 2 x 27 + 2 x 20 = 94 stars, 112 flowers
      of six marks each, 7 x 4 rainbow rectangles, nothing for Plain), every
      one under the filter in force and none of them the photo. */
  lemma FrameRender(st: State, fr: Frame)
    ensures var ms := Render(st, FrameCalls(Width, Height, fr));
      && |ms| == FrameMarkCount(fr)
      && DecorUnder(ms, st.filter)
    ensures Final(st, FrameCalls(Width, Height, fr)).filter == st.filter
  {
    EditorCounts();
    match fr
    case Tiled(m) =>
      assert 2 * CeilDiv(Width, Spacing(m)) + 2 * CeilDiv(Height, Spacing(m)) == if m == Star then 94 else 112;
      MotifRender(st, m, FrameMarkCount(fr));
    case Bands =>
      RainbowRender(st, Width as real, Height as real, BorderWidth as real);
    case Plain =>
  }

  /** How often the tiling loops run on the editor's canvas. */
  lemma EditorCounts()
    ensures CeilDiv(Width, 25) == 32 && CeilDiv(Height, 25) == 24
    ensures CeilDiv(Width, 30) == 27 && CeilDiv(Height, 30) == 20
  {
    DivBetween(824, 25, 32);
    DivBetween(624, 25, 24);
    DivBetween(829, 30, 27);
    DivBetween(629, 30, 20);
  }

  /** A motif border on the editor's canvas, `count` being its mark count. */
  lemma MotifRender(st: State, m: Motif, count: nat)
    requires count == PerStamp(m) * (2 * CeilDiv(Width, Spacing(m)) + 2 * CeilDiv(Height, Spacing(m)))
    ensures var ms := Render(st, MotifBorder(m, Width, Height));
      && |ms| == count
      && DecorUnder(ms, st.filter)
    ensures Final(st, MotifBorder(m, Width, Height)).filter == st.filter
  {
    MotifBorderRender(st, m, Width, Height);
    MarksOfUniform(m, MotifSites(m, Width, Height), st.filter);
  }

  /** The first three calls, from any canvas state: the resize resets the
      context, and the whole canvas is painted white with no filter. */
  lemma SetupRender(st: State)
    ensures Render(st, Setup) == [Mark(Box(Full), White, NoFilter)]
    ensures Final(st, Setup) == Fresh.(fill := White)
  {
    var a, b, c := Resize(Width, Height), SetFill(White), FillRect(Full);
    assert Setup == [a] + [b] + [c];
    RenderOne(st, a);
    RenderOne(Fresh, b);
    RenderOne(Fresh.(fill := White), c);
    RenderAppend(st, [a], [b]);
    RenderAppend(st, [a] + [b], [c]);
  }

  /** The photo and the filter reset around it. */
  lemma ImageRender(s0: State, border: string, filter: string)
    requires s0 == Fresh.(fill := White)
    ensures var img := [DrawImage(PhotoRect(border)), SetFilter(NoFilter)];
      var s1 := Final(s0, FilterStep(filter));
      && Render(s0, FilterStep(filter)) == []
      && s1 == s0.(filter := FilterCss(filter))
      && Render(s1, img) == [Mark(Picture(PhotoRect(border)), White, FilterCss(filter))]
      && Final(s1, img) == s0
  {
    var r := PhotoRect(border);
    var css := FilterCss(filter);
    var s1 := s0.(filter := css);
    if filter != NoFilterId {
      RenderOne(s0, SetFilter(css));
    } else {
      assert css == NoFilter;
    }
    assert Final(s0, FilterStep(filter)) == s1;
    RenderOne(s1, DrawImage(r));
    RenderOne(s1, SetFilter(NoFilter));
    RenderAppend(s1, [DrawImage(r)], [SetFilter(NoFilter)]);
    assert [DrawImage(r)] + [SetFilter(NoFilter)] == [DrawImage(r), SetFilter(NoFilter)];
  }

  /** What drawPhoto paints, whatever the canvas held before: first the
      white background over the whole canvas with no filter, then the photo
      in its padded rectangle under the chosen filter's CSS ("none" when no
      known filter is chosen), then exactly the border's marks, none of them
      filtered and none of them the photo. The filter is off at the end. */
  lemma DrawPhotoRender(st: State, border: string, filter: string)
    ensures var ms := Render(st, DrawPhoto(border, filter));
      && |ms| == 2 + FrameMarkCount(FrameOf(border))
      && ms[0] == Mark(Box(Full), White, NoFilter)
      && ms[1] == Mark(Picture(PhotoRect(border)), White, FilterCss(filter))
      && DecorUnder(ms[2..], NoFilter)
    ensures Final(st, DrawPhoto(border, filter)).filter == NoFilter
  {
    var s0 := Fresh.(fill := White);
    var fr := FrameOf(border);
    DrawPhotoMarks(st, border, filter);
    FrameRender(s0, fr);
    var mb := Render(s0, FrameCalls(Width, Height, fr));
    var ms := Render(st, DrawPhoto(border, filter));
    assert ms == [Mark(Box(Full), White, NoFilter), Mark(Picture(PhotoRect(border)), White, FilterCss(filter))] + mb;
    assert ms[2..] == mb;
  }

  /** drawPhoto paints the background, the photo, and then the frame's marks
      drawn from a fresh white-filled, unfiltered canvas state. */
  lemma DrawPhotoMarks(st: State, border: string, filter: string)
    ensures var s0 := Fresh.(fill := White);
      var bs := FrameCalls(Width, Height, FrameOf(border));
      && Render(st, DrawPhoto(border, filter))
         == [Mark(Box(Full), White, NoFilter), Mark(Picture(PhotoRect(border)), White, FilterCss(filter))] + Render(s0, bs)
      && Final(st, DrawPhoto(border, filter)) == Final(s0, bs)
  {
    var pre := Setup + FilterStep(filter) + [DrawImage(PhotoRect(border)), SetFilter(NoFilter)];
    var bs := BorderStep(border);
    PhotoPrefix(st, border, filter);
    BorderStepIsDrawBorder(border);
    assert DrawPhoto(border, filter) == pre + bs;
    RenderAppend(st, pre, bs);
  }

  /** Everything before the border: the background, then the filtered photo;
      afterwards the canvas is back to white fill and no filter. */
  lemma PhotoPrefix(st: State, border: string, filter: string)
    ensures var pre := Setup + FilterStep(filter) + [DrawImage(PhotoRect(border)), SetFilter(NoFilter)];
      && Render(st, pre) == [Mark(Box(Full), White, NoFilter), Mark(Picture(PhotoRect(border)), White, FilterCss(filter))]
      && Final(st, pre) == Fresh.(fill := White)
  {
    var s0 := Fresh.(fill := White);
    var fs := FilterStep(filter);
    var img := [DrawImage(PhotoRect(border)), SetFilter(NoFilter)];
    SetupRender(st);
    ImageRender(s0, border, filter);
    RenderAppend(st, Setup, fs);
    RenderAppend(st, Setup + fs, img);
  }

  /** Every heart stamped on the editor's canvas lies inside the canvas and
      inside the 40-pixel frame: its 12 x 12 box never reaches into the photo. */
  lemma HeartsInFrame(k: nat)
    requires k < |MotifSites(Heart, Width, Height)|
    ensures var s := MotifSites(Heart, Width, Height)[k];
      && 0 <= s.x && s.x + 12 <= Width as int && 0 <= s.y && s.y + 12 <= Height as int
      && (s.y + 12 <= BorderWidth || s.y >= Height - BorderWidth
          || s.x + 12 <= BorderWidth || s.x >= Width - BorderWidth)
  {
    var sites := PerimeterSites(Width, Height, 25, 10);
    assert MotifSites(Heart, Width, Height) == sites;
    EditorCounts();
    SiteAt(Width, Height, 25, 10, k);
    if k < 64 {
      var i := k / 2;
      assert 0 <= i < 32;
      MulMono(i, 31, 25);
      assert sites[k].x == i * 25 + 10;
    } else {
      var j := (k - 64) / 2;
      assert 0 <= j < 24;
      MulMono(j, 23, 25);
      assert sites[k].y == j * 25 + 10;
    }
  }
}

=== FILE: filters.dfy ===
/** The colour filters of the photo editor. A filter id names a composite
    colour transform written as CSS filter text; the canvas applies that text
    while the photo is drawn. Pixel effects are not modelled: the CSS text is
    an opaque value to the canvas model. */
module Filters {
  import Canvas

  /** The ids the editor's filter menu offers besides "none". */
  const Known: set<string> := {"warm", "cool", "vintage", "bright"}

  /** The menu's id for "no filter" (a filter id, not CSS text). */
  const NoFilterId := "none"

  /** getFilterCSS: the CSS filter text for a filter id. Each known id has its
      fixed composite (functions applied left to right); every other id,
      "none" included, yields "none", and no known id does. */
  function FilterCss(id: string): (css: string)
    ensures id == "warm" ==> css == "sepia(0.3) saturate(1.2) hue-rotate(10deg)"
    ensures id == "cool" ==> css == "saturate(1.1) hue-rotate(180deg) brightness(1.1)"
    ensures id == "vintage" ==> css == "sepia(0.5) contrast(1.2) brightness(0.9)"
    ensures id == "bright" ==> css == "brightness(1.2) contrast(1.1) saturate(1.2)"
    ensures css == Canvas.NoFilter <==> id !in Known
  {
    match id
    case "warm" => "sepia(0.3) saturate(1.2) hue-rotate(10deg)"
    case "cool" => "saturate(1.1) hue-rotate(180deg) brightness(1.1)"
    case "vintage" => "sepia(0.5) contrast(1.2) brightness(0.9)"
    case "bright" => "brightness(1.2) contrast(1.1) saturate(1.2)"
    case _ => Canvas.NoFilter
  }

  /** Distinct known ids give distinct filters: the menu never offers two
      names for the same effect. */
  lemma KnownFiltersDistinct(a: string, b: string)
    requires a in Known && b in Known && a != b
    ensures FilterCss(a) != FilterCss(b)
  {
  }
}

=== FILE: motifs.dfy ===
/** The three tiled border motifs (hearts, stars, flowers): their shapes, the
    draw calls one stamp makes, and what those calls paint. */
module Motifs {
  import opened Canvas
  import opened Tiling

  datatype Motif = Heart | Star | Flower

  /** Fill colour of the motif (of the petals, for flowers). */
  function Color(m: Motif): string
  {
    match m
    case Heart => "#ec4899"
    case Star => "#f59e0b"
    case Flower => "#a855f7"
  }

  /** Colour of a flower's centre dot. */
  const CenterColor := "#fbbf24"

  function Size(m: Motif): real
  {
    match m
    case Heart => 12.0
    case Star => 10.0
    case Flower => 8.0
  }

  /** Step between consecutive stamps along an edge. */
  function Spacing(m: Motif): nat
  {
    match m
    case Heart => 25
    case Star => 30
    case Flower => 25
  }

  /** Offset of a stamp along its edge from the loop variable. */
  function Along(m: Motif): int
  {
    match m
    case Heart => 10
    case Star => 15
    case Flower => 15
  }

  // ---------------------------------------------------------------- shapes

  /** drawHeart's outline: two lobes of quadratic curves meeting at the top
      centre, two straight lines down to the tip and a curve back up the left side. */
  function HeartPath(x: real, y: real, size: real): seq<PathOp>
  {
    [ MoveTo(Pt(x, y + size / 4.0)),
      QuadTo(Pt(x, y), Pt(x + size / 4.0, y)),
      QuadTo(Pt(x + size / 2.0, y), Pt(x + size / 2.0, y + size / 4.0)),
      QuadTo(Pt(x + size / 2.0, y), Pt(x + size * 3.0 / 4.0, y)),
      QuadTo(Pt(x + size, y), Pt(x + size, y + size / 4.0)),
      QuadTo(Pt(x + size, y + size / 2.0), Pt(x + size * 3.0 / 4.0, y + size * 3.0 / 4.0)),
      LineTo(Pt(x + size / 2.0, y + size)),
      LineTo(Pt(x + size / 4.0, y + size * 3.0 / 4.0)),
      QuadTo(Pt(x, y + size / 2.0), Pt(x, y + size / 4.0)) ]
  }

  /** The points one path op mentions, control points included. */
  function OpPoints(op: PathOp): seq<Point>
  {
    match op
    case MoveTo(p) => [p]
    case LineTo(p) => [p]
    case QuadTo(c, p) => [c, p]
    case Circle(c, _) => [c]
    case ClosePath => []
  }

  predicate IsInt(r: real)
  {
    r.Floor as real == r
  }

  /** The heart outline is closed: it starts at the left shoulder
      (x, y + size/4) and its last curve ends there again; its one sharp tip
      (x + size/2, y + size) is reached by a straight line. */
  lemma HeartClosed(x: real, y: real, size: real)
    ensures var ops := HeartPath(x, y, size);
      && ops[0] == MoveTo(Pt(x, y + size / 4.0))
      && ops[|ops| - 1].QuadTo? && ops[|ops| - 1].end == Pt(x, y + size / 4.0)
      && ops[6] == LineTo(Pt(x + size / 2.0, y + size))
  {
  }

  /** Every point of the heart lies in the size-by-size box whose top-left
      corner is the stamp site. */
  lemma HeartInBox(x: real, y: real, size: real)
    requires size >= 0.0
    ensures var ops := HeartPath(x, y, size);
      forall k, p :: 0 <= k < |ops| && p in OpPoints(ops[k]) ==>
        p.Pt? && x <= p.x <= x + size && y <= p.y <= y + size
  {
  }

  /** At size 12, stamped at integer coordinates, every point of the heart
      (control points included) has integer coordinates: size/4, size/2 and
      size*3/4 are 3, 6 and 9. */
  lemma HeartIntegral(s: Site)
    ensures var ops := HeartPath(s.x as real, s.y as real, 12.0);
      forall k, p :: 0 <= k < |ops| && p in OpPoints(ops[k]) ==> p.Pt? && IsInt(p.x) && IsInt(p.y)
  {
    var x, y := s.x, s.y;
    var ops := HeartPath(x as real, y as real, 12.0);
    assert ops == [ MoveTo(IntPt(x, y + 3)),
      QuadTo(IntPt(x, y), IntPt(x + 3, y)),
      QuadTo(IntPt(x + 6, y), IntPt(x + 6, y + 3)),
      QuadTo(IntPt(x + 6, y), IntPt(x + 9, y)),
      QuadTo(IntPt(x + 12, y), IntPt(x + 12, y + 3)),
      QuadTo(IntPt(x + 12, y + 6), IntPt(x + 9, y + 9)),
      LineTo(IntPt(x + 6, y + 12)),
      LineTo(IntPt(x + 3, y + 9)),
      QuadTo(IntPt(x, y + 6), IntPt(x, y + 3)) ];
  }

  /** The point with integer coordinates (a, b). */
  function IntPt(a: int, b: int): (p: Point)
    ensures p.Pt? && IsInt(p.x) && IsInt(p.y)
  {
    Pt(a as real, b as real)
  }

  /** drawStar's outline from vertex `i` on: vertex i lies at angle
      i * 4 * pi / 5, that is 4i fifths of pi, at distance `size`. */
  function StarVertices(x: real, y: real, size: real, i: nat): seq<PathOp>
    requires i <= 5
    decreases 5 - i
  {
    if i == 5 then []
    else
      var v := Polar(x, y, size, 4 * i);
      [if i == 0 then MoveTo(v) else LineTo(v)] + StarVertices(x, y, size, i + 1)
  }

  function StarPath(x: real, y: real, size: real): seq<PathOp>
  {
    StarVertices(x, y, size, 0) + [ClosePath]
  }

  /** The star path moves to vertex 0, draws lines to vertices 1..4 at angle
      multipliers 4i (distinct modulo a full turn of 10 fifths, so five
      distinct points skipping one each time), and closes the path. */
  lemma StarShape(x: real, y: real, size: real)
    ensures var ops := StarPath(x, y, size);
      && |ops| == 6
      && ops[0] == MoveTo(Polar(x, y, size, 0))
      && (forall i :: 1 <= i < 5 ==> ops[i] == LineTo(Polar(x, y, size, 4 * i)))
      && ops[5] == ClosePath
      && (forall i, j :: 0 <= i < j < 5 ==> (4 * i) % 10 != (4 * j) % 10)
  {
    var vs := StarVertices(x, y, size, 0);
    assert vs == [MoveTo(Polar(x, y, size, 0)), LineTo(Polar(x, y, size, 4)), LineTo(Polar(x, y, size, 8)),
                  LineTo(Polar(x, y, size, 12)), LineTo(Polar(x, y, size, 16))];
  }

  // ---------------------------------------------------------------- stamps

  /** The draw calls of one drawFlower: five petal circles in the current
      fill, the centre dot in CenterColor, then the fill back to the petal colour. */
  function FlowerCalls(x: real, y: real, size: real): seq<Command>
  {
    Petals(x, y, size, 0)
      + [SetFill(CenterColor), BeginPath, Path(Circle(Pt(x, y), size / 3.0)), Fill, SetFill(Color(Flower))]
  }

  /** Petals i..4: each at angle i * 2 * pi / 5 (2i fifths of pi), distance `size`. */
  function Petals(x: real, y: real, size: real, i: nat): seq<Command>
    requires i <= 5
    decreases 5 - i
  {
    if i == 5 then []
    else [BeginPath, Path(Circle(Polar(x, y, size, 2 * i), size / 2.0)), Fill] + Petals(x, y, size, i + 1)
  }

  /** The draw calls of one motif stamped at `s`. */
  function Stamp(m: Motif, s: Site): seq<Command>
  {
    var x := s.x as real;
    var y := s.y as real;
    match m
    case Heart => [BeginPath] + Trace(HeartPath(x, y, Size(m))) + [Fill]
    case Star => [BeginPath] + Trace(StarPath(x, y, Size(m))) + [Fill]
    case Flower => FlowerCalls(x, y, Size(m))
  }

  /** A run of stamps, in order. */
  function Stamps(m: Motif, sites: seq<Site>): seq<Command>
  {
    if sites == [] then [] else Stamp(m, sites[0]) + Stamps(m, sites[1..])
  }

  /** Where each motif border stamps its motif on a width-by-height canvas. */
  function MotifSites(m: Motif, width: int, height: int): seq<Site>
  {
    PerimeterSites(width, height, Spacing(m), Along(m))
  }

  /** drawHeartBorder / drawStarBorder / drawFlowerBorder. */
  function MotifBorder(m: Motif, width: int, height: int): seq<Command>
  {
    [SetFill(Color(m))] + Stamps(m, MotifSites(m, width, height))
  }

  /** Where each motif border stamps: hearts every 25 pixels offset by 10,
      stars every 30 and flowers every 25, both offset by 15; along the top
      and bottom edges at y = 15 and y = height - 25, along the left and right
      edges at x = 15 and x = width - 25; two stamps per loop step. */
  lemma MotifLayout(m: Motif, width: nat, height: nat)
    ensures var sites := MotifSites(m, width, height);
      var sp, a := Spacing(m), Along(m);
      var nx, ny := CeilDiv(width, sp), CeilDiv(height, sp);
      && sp == (if m == Star then 30 else 25)
      && a == (if m == Heart then 10 else 15)
      && |sites| == 2 * nx + 2 * ny
      && (forall i :: 0 <= i < nx ==>
            sites[2 * i] == Site(i * sp + a, 15) && sites[2 * i + 1] == Site(i * sp + a, height - 25))
      && (forall j :: 0 <= j < ny ==>
            sites[2 * nx + 2 * j] == Site(15, j * sp + a) && sites[2 * nx + 2 * j + 1] == Site(width - 25, j * sp + a))
  {
    PerimeterLayout(width, height, Spacing(m), Along(m));
  }

  // ---------------------------------------------------------------- meaning

  /** What one stamp paints under filter `f`. */
  function StampMarks(m: Motif, s: Site, f: string): seq<Mark>
  {
    var x := s.x as real;
    var y := s.y as real;
    match m
    case Heart => [Mark(Outline(HeartPath(x, y, Size(m))), Color(m), f)]
    case Star => [Mark(Outline(StarPath(x, y, Size(m))), Color(m), f)]
    case Flower => PetalMarks(x, y, Size(m), 0, f) + [Mark(Outline([Circle(Pt(x, y), Size(m) / 3.0)]), CenterColor, f)]
  }

  function PetalMarks(x: real, y: real, size: real, i: nat, f: string): seq<Mark>
    requires i <= 5
    decreases 5 - i
  {
    if i == 5 then []
    else [Mark(Outline([Circle(Polar(x, y, size, 2 * i), size / 2.0)]), Color(Flower), f)] + PetalMarks(x, y, size, i + 1, f)
  }

  /** Marks painted per stamp. */
  function PerStamp(m: Motif): nat
  {
    if m == Flower then 6 else 1
  }

  /** A flower paints five petals of radius size/2 in the petal colour at
      angles 2i fifths of pi, then one centre dot of radius size/3 in CenterColor. */
  lemma FlowerMarks(s: Site, f: string)
    ensures var ms := StampMarks(Flower, s, f);
      && |ms| == 6
      && (forall i :: 0 <= i < 5 ==>
            ms[i] == Mark(Outline([Circle(Polar(s.x as real, s.y as real, 8.0, 2 * i), 4.0)]), "#a855f7", f))
      && ms[5] == Mark(Outline([Circle(Pt(s.x as real, s.y as real), 8.0 / 3.0)]), "#fbbf24", f)
  {
    var x := s.x as real;
    var y := s.y as real;
    assert PetalMarks(x, y, 8.0, 0, f) == [
      Mark(Outline([Circle(Polar(x, y, 8.0, 0), 4.0)]), Color(Flower), f),
      Mark(Outline([Circle(Polar(x, y, 8.0, 2), 4.0)]), Color(Flower), f),
      Mark(Outline([Circle(Polar(x, y, 8.0, 4), 4.0)]), Color(Flower), f),
      Mark(Outline([Circle(Polar(x, y, 8.0, 6), 4.0)]), Color(Flower), f),
      Mark(Outline([Circle(Polar(x, y, 8.0, 8), 4.0)]), Color(Flower), f)];
  }

  lemma {:induction false} PetalsRender(st: State, x: real, y: real, size: real, i: nat)
    requires i <= 5
    requires st.fill == Color(Flower)
    ensures Render(st, Petals(x, y, size, i)) == PetalMarks(x, y, size, i, st.filter)
    ensures Final(st, Petals(x, y, size, i)).fill == st.fill
    ensures Final(st, Petals(x, y, size, i)).filter == st.filter
    decreases 5 - i
  {
    if i < 5 {
      var c := Circle(Polar(x, y, size, 2 * i), size / 2.0);
      var one := [BeginPath] + Trace([c]) + [Fill];
      assert Trace([c]) == [Path(c)] by {
        assert [c][1..] == [];
      }
      assert Petals(x, y, size, i) == one + Petals(x, y, size, i + 1);
      FilledPath(st, [c]);
      RenderAppend(st, one, Petals(x, y, size, i + 1));
      PetalsRender(st.(path := [c]), x, y, size, i + 1);
    }
  }

  /** The centre dot and the fill reset that end a flower. */
  lemma FlowerTail(st: State, x: real, y: real, size: real)
    ensures var tail := [SetFill(CenterColor), BeginPath, Path(Circle(Pt(x, y), size / 3.0)), Fill, SetFill(Color(Flower))];
      && Render(st, tail) == [Mark(Outline([Circle(Pt(x, y), size / 3.0)]), CenterColor, st.filter)]
      && Final(st, tail).fill == Color(Flower)
      && Final(st, tail).filter == st.filter
  {
    var c := Circle(Pt(x, y), size / 3.0);
    var st1 := st.(fill := CenterColor);
    assert Trace([c]) == [Path(c)] by {
      assert [c][1..] == [];
    }
    var mid := [BeginPath] + Trace([c]) + [Fill];
    FilledPath(st1, [c]);
    var tail := [SetFill(CenterColor), BeginPath, Path(c), Fill, SetFill(Color(Flower))];
    assert tail == [SetFill(CenterColor)] + mid + [SetFill(Color(Flower))];
    assert Render(st, [SetFill(CenterColor)]) == [] && Final(st, [SetFill(CenterColor)]) == st1 by {
      assert [SetFill(CenterColor)][1..] == [];
    }
    var st2 := st1.(path := [c]);
    assert Render(st2, [SetFill(Color(Flower))]) == [] && Final(st2, [SetFill(Color(Flower))]) == st2.(fill := Color(Flower)) by {
      assert [SetFill(Color(Flower))][1..] == [];
    }
    RenderAppend(st, [SetFill(CenterColor)], mid);
    RenderAppend(st, [SetFill(CenterColor)] + mid, [SetFill(Color(Flower))]);
  }

  /** One stamp, drawn in its motif's colour, paints exactly StampMarks and
      leaves the motif colour and the filter in force for the next stamp. */
  lemma StampRender(st: State, m: Motif, s: Site)
    requires st.fill == Color(m)
    ensures Render(st, Stamp(m, s)) == StampMarks(m, s, st.filter)
    ensures Final(st, Stamp(m, s)).fill == Color(m)
    ensures Final(st, Stamp(m, s)).filter == st.filter
  {
    var x := s.x as real;
    var y := s.y as real;
    match m
    case Heart =>
      FilledPath(st, HeartPath(x, y, Size(m)));
    case Star =>
      FilledPath(st, StarPath(x, y, Size(m)));
    case Flower =>
      var petals := Petals(x, y, Size(m), 0);
      var tail := [SetFill(CenterColor), BeginPath, Path(Circle(Pt(x, y), Size(m) / 3.0)), Fill, SetFill(Color(Flower))];
      PetalsRender(st, x, y, Size(m), 0);
      FlowerTail(Final(st, petals), x, y, Size(m));
      RenderAppend(st, petals, tail);
  }

  /** What a run of stamps paints: each stamp's marks, in stamping order. */
  function MarksOf(m: Motif, sites: seq<Site>, f: string): seq<Mark>
  {
    if sites == [] then [] else StampMarks(m, sites[0], f) + MarksOf(m, sites[1..], f)
  }

  /** A run of stamps started in the motif colour paints the stamps' marks in
      order, all under the filter in force, and leaves that filter in force. */
  lemma {:induction false} StampsRender(st: State, m: Motif, sites: seq<Site>)
    requires st.fill == Color(m)
    ensures Render(st, Stamps(m, sites)) == MarksOf(m, sites, st.filter)
    ensures Final(st, Stamps(m, sites)).fill == Color(m)
    ensures Final(st, Stamps(m, sites)).filter == st.filter
    decreases |sites|
  {
    if sites != [] {
      StampRender(st, m, sites[0]);
      RenderAppend(st, Stamp(m, sites[0]), Stamps(m, sites[1..]));
      StampsRender(Final(st, Stamp(m, sites[0])), m, sites[1..]);
    }
  }

  /** Painting two runs of stamps one after the other. */
  lemma {:induction false} MarksOfAppend(m: Motif, a: seq<Site>, b: seq<Site>, f: string)
    ensures MarksOf(m, a + b, f) == MarksOf(m, a, f) + MarksOf(m, b, f)
    decreases |a|
  {
    if a == [] {
      assert a + b == b;
    } else {
      assert (a + b)[0] == a[0];
      assert (a + b)[1..] == a[1..] + b;
      MarksOfAppend(m, a[1..], b, f);
    }
  }

  /** Stamp k's marks come right after the marks of stamps 0 .. k-1, of which
      there are PerStamp(m) * k: one outline per heart or star, six marks per
      flower. */
  lemma MarksLayout(m: Motif, sites: seq<Site>, k: nat, f: string)
    requires k < |sites|
    ensures var at := PerStamp(m) * k;
      && at + PerStamp(m) <= |MarksOf(m, sites, f)|
      && MarksOf(m, sites, f)[at .. at + PerStamp(m)] == StampMarks(m, sites[k], f)
  {
    var at, n := PerStamp(m) * k, PerStamp(m);
    var ms, x := MarksOf(m, sites, f), StampMarks(m, sites[k], f);
    assert at + n <= |ms| && ms[at .. at + n] == x by {
      var pre := sites[..k];
      MarksSplit(m, sites, k, f);
      MarksOfCount(m, pre, f);
      StampMarksCount(m, sites[k], f);
      SliceMiddle(ms, MarksOf(m, pre, f), x, MarksOf(m, sites[k + 1..], f), at, n);
    }
  }

  /** The marks of a run of stamps, split around stamp k. */
  lemma MarksSplit(m: Motif, sites: seq<Site>, k: nat, f: string)
    requires k < |sites|
    ensures MarksOf(m, sites, f)
      == MarksOf(m, sites[..k], f) + (StampMarks(m, sites[k], f) + MarksOf(m, sites[k + 1..], f))
  {
    var rest := [sites[k]] + sites[k + 1..];
    assert sites == sites[..k] + rest;
    MarksOfAppend(m, sites[..k], rest, f);
    MarksOfCons(m, sites[k], sites[k + 1..], f);
  }

  lemma MarksOfCons(m: Motif, s: Site, rest: seq<Site>, f: string)
    ensures MarksOf(m, [s] + rest, f) == StampMarks(m, s, f) + MarksOf(m, rest, f)
  {
    assert ([s] + rest)[0] == s && ([s] + rest)[1..] == rest;
  }

  lemma SliceMiddle<T>(s: seq<T>, a: seq<T>, x: seq<T>, b: seq<T>, at: nat, n: nat)
    requires s == a + (x + b) && |a| == at && |x| == n
    ensures at + n <= |s| && s[at .. at + n] == x
  {
  }

  /** Every mark a run of stamps paints is an outline under filter `f`. */
  lemma {:induction false} MarksOfUniform(m: Motif, sites: seq<Site>, f: string)
    ensures forall k :: 0 <= k < |MarksOf(m, sites, f)| ==>
      MarksOf(m, sites, f)[k].filter == f && MarksOf(m, sites, f)[k].shape.Outline?
    decreases |sites|
  {
    if sites != [] {
      MarksOfUniform(m, sites[1..], f);
      if m == Flower {
        FlowerMarks(sites[0], f);
      }
    }
  }

  /** A motif border paints one run of stamps in the motif colour, under the
      filter in force, and leaves that filter in force. With
      nx = ceil(width / spacing) and ny = ceil(height / spacing) it paints
      PerStamp(m) * (2 nx + 2 ny) marks. */
  lemma MotifBorderRender(st: State, m: Motif, width: nat, height: nat)
    ensures Render(st, MotifBorder(m, width, height)) == MarksOf(m, MotifSites(m, width, height), st.filter)
    ensures Final(st, MotifBorder(m, width, height)).filter == st.filter
    ensures |Render(st, MotifBorder(m, width, height))|
      == PerStamp(m) * (2 * CeilDiv(width, Spacing(m)) + 2 * CeilDiv(height, Spacing(m)))
  {
    var sites := MotifSites(m, width, height);
    var st1 := st.(fill := Color(m));
    assert Render(st, [SetFill(Color(m))]) == [] && Final(st, [SetFill(Color(m))]) == st1 by {
      assert [SetFill(Color(m))][1..] == [];
    }
    StampsRender(st1, m, sites);
    RenderAppend(st, [SetFill(Color(m))], Stamps(m, sites));
    MarksCount(m, width, height, st.filter);
  }

  lemma MarksCount(m: Motif, width: nat, height: nat, f: string)
    ensures |MarksOf(m, MotifSites(m, width, height), f)|
      == PerStamp(m) * (2 * CeilDiv(width, Spacing(m)) + 2 * CeilDiv(height, Spacing(m)))
  {
    var sites := MotifSites(m, width, height);
    SitesCount(width, height, Spacing(m), Along(m));
    MarksOfCount(m, sites, f);
  }

  lemma StampMarksCount(m: Motif, s: Site, f: string)
    ensures |StampMarks(m, s, f)| == PerStamp(m)
  {
    if m == Flower {
      FlowerMarks(s, f);
    }
  }

  /** Each stamp adds PerStamp(m) marks. */
  lemma {:induction false} MarksOfCount(m: Motif, sites: seq<Site>, f: string)
    ensures |MarksOf(m, sites, f)| == PerStamp(m) * |sites|
    decreases |sites|
  {
    if sites != [] {
      MarksOfCount(m, sites[1..], f);
      StampMarksCount(m, sites[0], f);
    }
  }
}

=== FILE: navigation.dfy ===
/** The application's top-level page: which step of the booth is current
    (home, capture or print), the photos handed over by the capture screen,
    and which view is shown for them. */
module Navigation {
  import Capture

  type Photo = Capture.Photo

  /** currentStep: 'home', 'capture' (here `Shooting`) or 'print'. */
  datatype Step = Home | Shooting | Print

  /** The page's state: currentStep and capturedPhotos. */
  datatype App = App(step: Step, photos: seq<Photo>)

  const Initial := App(Home, [])

  /** What the page renders. */
  datatype View = HomeView | CaptureView | PrintView(shown: seq<Photo>)

  /** The capture step always shows the capture screen; the print step shows
      the print preview only with exactly four photos; everything else falls
      through to the home page. */
  function ViewOf(a: App): View
  {
    if a.step == Shooting then CaptureView
    else if a.step == Print && |a.photos| == 4 then PrintView(a.photos)
    else HomeView
  }

  /** The page's event handlers. */
  datatype Event =
    | StartSession              // either start button on the home page
    | CaptureBack               // the capture screen's back button
    | Captured(got: seq<Photo>) // the capture screen's onCapture
    | PrintBack                 // the print preview's back button
    | PrintHome                 // the print preview's home button

  /** handlePhotoCapture: keep the photos and go to the print step. */
  function HandlePhotoCapture(a: App, photos: seq<Photo>): App
  {
    App(Print, photos)
  }

  /** resetToHome: back to the home step with no photos. */
  function ResetToHome(a: App): App
  {
    App(Home, [])
  }

  function Apply(a: App, e: Event): App
  {
    match e
    case StartSession => a.(step := Shooting)
    case CaptureBack => a.(step := Home)
    case Captured(got) => HandlePhotoCapture(a, got)
    case PrintBack => a.(step := Shooting)
    case PrintHome => ResetToHome(a)
  }

  /** Each handler belongs to the view that renders its button. The capture
      screen hands over exactly four photos (see Booth.DeliversFour). */
  predicate Enabled(a: App, e: Event)
  {
    match e
    case StartSession => ViewOf(a) == HomeView
    case CaptureBack => ViewOf(a) == CaptureView
    case Captured(got) => ViewOf(a) == CaptureView && |got| == 4
    case PrintBack => ViewOf(a).PrintView?
    case PrintHome => ViewOf(a).PrintView?
  }

  /** The view guard, both ways: the print preview is shown exactly when the
      step is print and there are four photos, and it shows those photos;
      the capture screen exactly on the capture step; home otherwise. */
  lemma ViewGuard(a: App)
    ensures ViewOf(a).PrintView? <==> a.step == Print && |a.photos| == 4
    ensures ViewOf(a).PrintView? ==> ViewOf(a).shown == a.photos
    ensures ViewOf(a) == CaptureView <==> a.step == Shooting
    ensures ViewOf(a) == HomeView <==> a.step == Home || (a.step == Print && |a.photos| != 4)
  {
  }

  /** handlePhotoCapture stores exactly the photos it is given and moves to
      print; the preview then shows them if there are four, and the page
      falls back to home otherwise. */
  lemma HandlePhotoCaptureEffect(a: App, photos: seq<Photo>)
    ensures HandlePhotoCapture(a, photos).step == Print
    ensures HandlePhotoCapture(a, photos).photos == photos
    ensures |photos| == 4 ==> ViewOf(HandlePhotoCapture(a, photos)) == PrintView(photos)
    ensures |photos| != 4 ==> ViewOf(HandlePhotoCapture(a, photos)) == HomeView
  {
  }

  /** The back buttons are undone by the way forward: back from capture
      and starting again, or back from print and handing the same photos over
      again, returns to the very same state; neither drops the photos. */
  lemma BackRoundTrips(a: App)
    ensures a.step == Shooting ==> Apply(Apply(a, CaptureBack), StartSession) == a
    ensures a.step == Print ==> Apply(Apply(a, PrintBack), Captured(a.photos)) == a
    ensures Apply(a, CaptureBack).photos == a.photos && Apply(a, PrintBack).photos == a.photos
    ensures ViewOf(a).PrintView? ==> ViewOf(Apply(a, PrintBack)) == CaptureView
  {
  }

  /** resetToHome forgets the session: it shows home with no photos, and
      from then on the print preview only ever shows photos handed over by a
      later onCapture. */
  lemma ResetForgetsPhotos(a: App, es: seq<Event>)
    ensures ResetToHome(a).photos == [] && ViewOf(ResetToHome(a)) == HomeView
    ensures var b := Run(ResetToHome(a), es);
      ViewOf(b).PrintView? ==> exists i :: 0 <= i < |es| && es[i] == Captured(b.photos)
  {
    PhotosFromCapture(ResetToHome(a), es);
  }

  /** The stored photos are the initial ones, none, or what some onCapture
      in the run handed over. */
  lemma {:induction false} PhotosFromCapture(a: App, es: seq<Event>)
    ensures var b := Run(a, es);
      || b.photos == a.photos
      || b.photos == []
      || exists i :: 0 <= i < |es| && es[i] == Captured(b.photos)
    decreases |es|
  {
    if es != [] {
      var a1 := Apply(a, es[0]);
      var b := Run(a, es);
      PhotosFromCapture(a1, es[1..]);
      if b.photos == a1.photos {
        if es[0].Captured? {
          assert es[0] == Captured(b.photos);
        }
      } else if b.photos != [] {
        var i :| 0 <= i < |es[1..]| && es[1..][i] == Captured(b.photos);
        assert es[i + 1] == Captured(b.photos);
      }
    }
  }

  /** Reachable states: the print step always holds four photos. */
  predicate Inv(a: App)
  {
    a.step == Print ==> |a.photos| == 4
  }

  lemma StepPreservesInv(a: App, e: Event)
    requires Inv(a) && Enabled(a, e)
    ensures Inv(Apply(a, e))
  {
  }

  function Run(a: App, es: seq<Event>): App
    decreases |es|
  {
    if es == [] then a else Run(Apply(a, es[0]), es[1..])
  }

  predicate Valid(a: App, es: seq<Event>)
    decreases |es|
  {
    es == [] || (Enabled(a, es[0]) && Valid(Apply(a, es[0]), es[1..]))
  }

  lemma {:induction false} RunPreservesInv(a: App, es: seq<Event>)
    requires Inv(a) && Valid(a, es)
    ensures Inv(Run(a, es))
    decreases |es|
  {
    if es != [] {
      StepPreservesInv(a, es[0]);
      RunPreservesInv(Apply(a, es[0]), es[1..]);
    }
  }

  /** Along any valid run from the start, the step and the view agree: the
      print step always shows the print preview with the stored photos, so
      the home fallback is shown only on the home step. */
  lemma StepMatchesView(es: seq<Event>)
    requires Valid(Initial, es)
    ensures var a := Run(Initial, es);
      && (a.step == Home <==> ViewOf(a) == HomeView)
      && (a.step == Shooting <==> ViewOf(a) == CaptureView)
      && (a.step == Print <==> ViewOf(a) == PrintView(a.photos))
  {
    RunPreservesInv(Initial, es);
  }
}

=== FILE: rainbow.dfy ===
/** The rainbow border: seven colour bands, each drawn as four edge
    rectangles, together filling the border inset. On the top and left edges
    band 0 touches the canvas edge; on the bottom and right edges the order
    is mirrored and band 0 lies next to the photo (see BandsMirrored). */
module Rainbow {
  import opened Canvas

  /** Red, orange, yellow, green, blue, indigo, violet: band 0 first. */
  const Colors: seq<string> := ["#ef4444", "#f97316", "#eab308", "#22c55e", "#3b82f6", "#6366f1", "#a855f7"]

  /** Width of one band: the border inset shared evenly among the colours. */
  function Stripe(inset: real): real
  {
    inset / |Colors| as real
  }

  /** Distance of band `i` from the canvas edge. */
  function Offset(inset: real, i: nat): real
  {
    i as real * Stripe(inset)
  }

  /** Band `i`'s rectangles: top, bottom, left and right edge, in that order. */
  function BandRects(width: real, height: real, inset: real, i: nat): seq<Rect>
  {
    var off := Offset(inset, i);
    var sw := Stripe(inset);
    [ Rect(0.0, off, width, sw),
      Rect(0.0, height - inset + off, width, sw),
      Rect(off, 0.0, sw, height),
      Rect(width - inset + off, 0.0, sw, height) ]
  }

  /** Bands i..6: set the band's colour, fill its four rectangles. */
  function Bands(width: real, height: real, inset: real, i: nat): seq<Command>
    requires i <= |Colors|
    decreases |Colors| - i
  {
    if i == |Colors| then []
    else
      [SetFill(Colors[i])] + FillRects(BandRects(width, height, inset, i)) + Bands(width, height, inset, i + 1)
  }

  /** drawRainbowBorder. */
  function RainbowBorder(width: real, height: real, inset: real): seq<Command>
  {
    Bands(width, height, inset, 0)
  }

  /** The marks band i..6 should leave: each band's four rectangles, in its colour. */
  function BandMarks(width: real, height: real, inset: real, i: nat, filter: string): seq<Mark>
    requires i <= |Colors|
    decreases |Colors| - i
  {
    if i == |Colors| then []
    else
      seq(4, side requires 0 <= side < 4 => BandMark(width, height, inset, i, side, filter))
      + BandMarks(width, height, inset, i + 1, filter)
  }

  /** Side `side` (top, bottom, left, right) of band `i`, in the band's colour. */
  function BandMark(width: real, height: real, inset: real, i: nat, side: nat, filter: string): Mark
    requires i < |Colors| && side < 4
  {
    Mark(Box(BandRects(width, height, inset, i)[side]), Colors[i], filter)
  }

  lemma {:induction false} BandsRender(st: State, width: real, height: real, inset: real, i: nat)
    requires i <= |Colors|
    ensures Render(st, Bands(width, height, inset, i)) == BandMarks(width, height, inset, i, st.filter)
    ensures Final(st, Bands(width, height, inset, i)).filter == st.filter
    decreases |Colors| - i
  {
    if i < |Colors| {
      var r := BandRects(width, height, inset, i);
      var head := [SetFill(Colors[i])] + FillRects(r);
      var tail := Bands(width, height, inset, i + 1);
      var st1 := st.(fill := Colors[i]);
      assert Render(st, [SetFill(Colors[i])]) == [] && Final(st, [SetFill(Colors[i])]) == st1 by {
        assert [SetFill(Colors[i])][1..] == [];
      }
      FillRectsRender(st1, r);
      RenderAppend(st, [SetFill(Colors[i])], FillRects(r));
      var ma := Render(st, head);
      assert |ma| == 4 && Final(st, head) == st1;
      assert ma == seq(4, side requires 0 <= side < 4 => BandMark(width, height, inset, i, side, st.filter));
      RenderAppend(st, head, tail);
      BandsRender(st1, width, height, inset, i + 1);
      assert Bands(width, height, inset, i) == head + tail;
    }
  }

  lemma {:induction false} BandMarksAt(width: real, height: real, inset: real, i: nat, filter: string)
    requires i <= |Colors|
    ensures var ms := BandMarks(width, height, inset, i, filter);
      && |ms| == 4 * (|Colors| - i)
      && forall b, side :: i <= b < |Colors| && 0 <= side < 4 ==>
           ms[4 * (b - i) + side] == BandMark(width, height, inset, b, side, filter)
    decreases |Colors| - i
  {
    if i < |Colors| {
      var head := seq(4, side requires 0 <= side < 4 => BandMark(width, height, inset, i, side, filter));
      var mb := BandMarks(width, height, inset, i + 1, filter);
      var ms := BandMarks(width, height, inset, i, filter);
      assert ms == head + mb;
      BandMarksAt(width, height, inset, i + 1, filter);
      forall b, side | i <= b < |Colors| && 0 <= side < 4
        ensures ms[4 * (b - i) + side] == BandMark(width, height, inset, b, side, filter)
      {
        if b == i {
          assert ms[side] == head[side];
        } else {
          assert ms[4 * (b - i) + side] == mb[4 * (b - (i + 1)) + side];
        }
      }
    }
  }

  /** Every band mark is a box under the given filter. */
  lemma {:induction false} BandMarksDecor(width: real, height: real, inset: real, i: nat, filter: string)
    requires i <= |Colors|
    ensures DecorUnder(BandMarks(width, height, inset, i, filter), filter)
    decreases |Colors| - i
  {
    if i < |Colors| {
      BandMarksDecor(width, height, inset, i + 1, filter);
      var head := seq(4, side requires 0 <= side < 4 => BandMark(width, height, inset, i, side, filter));
      var mb := BandMarks(width, height, inset, i + 1, filter);
      var ms := head + mb;
      assert ms == BandMarks(width, height, inset, i, filter);
      forall k | 4 <= k < |ms|
        ensures ms[k].filter == filter && !ms[k].shape.Picture?
      {
        assert ms[k] == mb[k - 4];
      }
    }
  }

  /** The rainbow paints exactly 7 x 4 = 28 rectangles: mark 4b + side is
      rectangle `side` (top, bottom, left, right) of band b, filled with that
      band's colour, under the filter in force; the filter is left unchanged. */
  lemma RainbowRender(st: State, width: real, height: real, inset: real)
    ensures var ms := Render(st, RainbowBorder(width, height, inset));
      && |ms| == 28
      && (forall b, side :: 0 <= b < 7 && 0 <= side < 4 ==>
           ms[4 * b + side] == Mark(Box(BandRects(width, height, inset, b)[side]), Colors[b], st.filter))
      && DecorUnder(ms, st.filter)
    ensures Final(st, RainbowBorder(width, height, inset)).filter == st.filter
  {
    BandsRender(st, width, height, inset, 0);
    BandMarksAt(width, height, inset, 0, st.filter);
    BandMarksDecor(width, height, inset, 0, st.filter);
    var ms := BandMarks(width, height, inset, 0, st.filter);
    forall b, side | 0 <= b < 7 && 0 <= side < 4
      ensures ms[4 * b + side] == Mark(Box(BandRects(width, height, inset, b)[side]), Colors[b], st.filter)
    {
      assert ms[4 * (b - 0) + side] == BandMark(width, height, inset, b, side, st.filter);
    }
  }

  /** The bands are contiguous: band 0 starts at the edge, each band starts
      where the previous one ends, and the last one ends exactly at the inset. */
  lemma BandsContiguous(inset: real)
    ensures Offset(inset, 0) == 0.0
    ensures forall i: nat :: i < 6 ==> Offset(inset, i + 1) == Offset(inset, i) + Stripe(inset)
    ensures Offset(inset, 6) + Stripe(inset) == inset
  {
  }

  /** Where each band lies, measured inwards from its own edge: on the top
      and left edges band i lies at depth Offset(i), but on the bottom and
      right edges at depth Offset(6 - i), the depth of band 6 - i. So the
      bands are not concentric: band 0 (red) touches the top and left canvas
      edges and the photo's bottom and right edges. */
  lemma BandsMirrored(width: real, height: real, inset: real, i: nat)
    requires i < |Colors|
    ensures var r := BandRects(width, height, inset, i);
      && r[0].y == Offset(inset, i) && r[2].x == Offset(inset, i)
      && height - (r[1].y + r[1].h) == Offset(inset, 6 - i)
      && width - (r[3].x + r[3].w) == Offset(inset, 6 - i)
      && r[1].y == height - inset + Offset(inset, i)
  {
    var sw := Stripe(inset);
    assert inset == 7.0 * sw;
    assert Offset(inset, 6 - i) == (6 - i) as real * sw;
    assert inset - (i as real * sw + sw) == (6 - i) as real * sw;
  }

  /** Which band covers depth `t` into the 40-pixel border. */
  function BandAt(t: real): int
  {
    (t * 7.0 / 40.0).Floor
  }

  /** With the editor's 40-pixel inset every depth t in [0, 40) lies in
      exactly one band, the band BandAt(t): the bands tile the border with no
      gap and no overlap. Stripes are 40/7 wide. */
  lemma BandsTileInset(t: real)
    requires 0.0 <= t < 40.0
    ensures Stripe(40.0) == 40.0 / 7.0
    ensures 0 <= BandAt(t) < 7
    ensures Offset(40.0, BandAt(t)) <= t < Offset(40.0, BandAt(t)) + Stripe(40.0)
    ensures forall i: nat :: i < 7 && Offset(40.0, i) <= t < Offset(40.0, i) + Stripe(40.0) ==> i == BandAt(t)
  {
    var b := BandAt(t);
    assert b as real <= t * 7.0 / 40.0 < b as real + 1.0;
    forall i: nat | i < 7 && Offset(40.0, i) <= t < Offset(40.0, i) + Stripe(40.0)
      ensures i == b
    {
      assert i as real <= t * 7.0 / 40.0 < i as real + 1.0;
    }
  }
}

=== FILE: tiling.dfy ===
/** Perimeter tiling of the motif borders. Every motif border runs the same two
    loops: one along the top and bottom edges and one along the left and right
    edges, each stamping a motif on both edges per step. The corner regions are
    covered by both loops; nothing is de-duplicated. */
module Tiling {

  /** Distance of a stamp from the near edge (top or left). */
  const Near := 15
  /** Distance of a stamp from the far edge (bottom or right). */
  const Far := 25

  /** The values `v` takes in `for (let v = start; v < limit; v += spacing)`. */
  function Ticks(start: int, limit: int, spacing: nat): seq<int>
    requires spacing > 0
    decreases limit - start
  {
    if start >= limit then [] else [start] + Ticks(start + spacing, limit, spacing)
  }

  /** The loop visits `start + i * spacing` for i = 0, 1, ..., and stops at the
      first such value that reaches `limit`: it runs exactly as often as needed. */
  lemma {:induction false} TicksShape(start: int, limit: int, spacing: nat)
    requires spacing > 0
    ensures var n := |Ticks(start, limit, spacing)|;
      && (forall i :: 0 <= i < n ==> Ticks(start, limit, spacing)[i] == start + i * spacing)
      && (forall i :: 0 <= i < n ==> start + i * spacing < limit)
      && start + n * spacing >= limit
    decreases limit - start
  {
    if start < limit {
      var rest := Ticks(start + spacing, limit, spacing);
      var vs := Ticks(start, limit, spacing);
      TicksShape(start + spacing, limit, spacing);
      assert vs == [start] + rest;
      forall i | 0 <= i < |vs|
        ensures vs[i] == start + i * spacing
        ensures start + i * spacing < limit
      {
        if i > 0 {
          assert vs[i] == rest[i - 1];
          MulPred(i, spacing);
        }
      }
      MulPred(|vs|, spacing);
    }
  }

  /** Rounded-up division. */
  function CeilDiv(a: nat, b: nat): nat
    requires b > 0
  {
    (a + b - 1) / b
  }

  /** The least `n` with `n * b >= a` is `CeilDiv(a, b)`. */
  lemma CeilDivLeast(a: nat, b: nat, n: nat)
    requires b > 0
    requires n * b >= a
    requires n == 0 || (n - 1) * b < a
    ensures n == CeilDiv(a, b)
  {
    if n > 0 {
      MulPred(n, b);
    }
    DivBetween(a + b - 1, b, n);
  }

  lemma MulPred(i: int, s: int)
    ensures (i - 1) * s + s == i * s
  {
  }

  /** `x / b == n` when `x` lies in `[n * b, n * b + b)`. */
  lemma DivBetween(x: nat, b: nat, n: nat)
    requires b > 0
    requires n * b <= x < n * b + b
    ensures x / b == n
  {
    var q := x / b;
    var r := x % b;
    assert x == q * b + r && 0 <= r < b;
    if q < n {
      MulMono(q + 1, n, b);
      MulPred(q + 1, b);
    } else if q > n {
      MulMono(n + 1, q, b);
      MulPred(n + 1, b);
    }
  }

  lemma MulMono(a: nat, c: nat, b: nat)
    requires a <= c
    ensures a * b <= c * b
  {
  }

  /** How often `for (let v = 0; v < limit; v += spacing)` runs: ceil(limit / spacing). */
  lemma TicksCount(limit: nat, spacing: nat)
    requires spacing > 0
    ensures |Ticks(0, limit, spacing)| == CeilDiv(limit, spacing)
  {
    TicksShape(0, limit, spacing);
    var n := |Ticks(0, limit, spacing)|;
    if n > 0 {
      assert (n - 1) * spacing < limit;
    }
    CeilDivLeast(limit, spacing, n);
  }

  /** Where a motif is stamped (its anchor point; see Motifs). */
  datatype Site = Site(x: int, y: int)

  /** The horizontal pass: for each x, a stamp near the top and one near the bottom. */
  function TopBottom(xs: seq<int>, height: int, along: int): seq<Site>
  {
    if xs == [] then []
    else [Site(xs[0] + along, Near), Site(xs[0] + along, height - Far)] + TopBottom(xs[1..], height, along)
  }

  /** The vertical pass: for each y, a stamp near the left and one near the right. */
  function LeftRight(ys: seq<int>, width: int, along: int): seq<Site>
  {
    if ys == [] then []
    else [Site(Near, ys[0] + along), Site(width - Far, ys[0] + along)] + LeftRight(ys[1..], width, along)
  }

  /** All stamps of a motif border: the horizontal pass, then the vertical one. */
  function PerimeterSites(width: int, height: int, spacing: nat, along: int): seq<Site>
    requires spacing > 0
  {
    TopBottom(Ticks(0, width, spacing), height, along)
      + LeftRight(Ticks(0, height, spacing), width, along)
  }

  lemma {:induction false} TopBottomShape(xs: seq<int>, height: int, along: int)
    ensures |TopBottom(xs, height, along)| == 2 * |xs|
    ensures forall i :: 0 <= i < |xs| ==>
      && TopBottom(xs, height, along)[2 * i] == Site(xs[i] + along, Near)
      && TopBottom(xs, height, along)[2 * i + 1] == Site(xs[i] + along, height - Far)
  {
    if xs != [] {
      TopBottomShape(xs[1..], height, along);
      var r := TopBottom(xs, height, along);
      var rest := TopBottom(xs[1..], height, along);
      forall i | 0 <= i < |xs|
        ensures r[2 * i] == Site(xs[i] + along, Near) && r[2 * i + 1] == Site(xs[i] + along, height - Far)
      {
        if i > 0 {
          assert r[2 * i] == rest[2 * (i - 1)];
          assert r[2 * i + 1] == rest[2 * (i - 1) + 1];
          assert xs[1..][i - 1] == xs[i];
        }
      }
    }
  }

  lemma {:induction false} LeftRightShape(ys: seq<int>, width: int, along: int)
    ensures |LeftRight(ys, width, along)| == 2 * |ys|
    ensures forall j :: 0 <= j < |ys| ==>
      && LeftRight(ys, width, along)[2 * j] == Site(Near, ys[j] + along)
      && LeftRight(ys, width, along)[2 * j + 1] == Site(width - Far, ys[j] + along)
  {
    if ys != [] {
      LeftRightShape(ys[1..], width, along);
      var r := LeftRight(ys, width, along);
      var rest := LeftRight(ys[1..], width, along);
      forall j | 0 <= j < |ys|
        ensures r[2 * j] == Site(Near, ys[j] + along) && r[2 * j + 1] == Site(width - Far, ys[j] + along)
      {
        if j > 0 {
          assert r[2 * j] == rest[2 * (j - 1)];
          assert r[2 * j + 1] == rest[2 * (j - 1) + 1];
          assert ys[1..][j - 1] == ys[j];
        }
      }
    }
  }

  /** The tiling, stamp by stamp: with nx = ceil(width / spacing) and
      ny = ceil(height / spacing) there are 2 nx + 2 ny stamps; stamps 2i and
      2i+1 sit at x = i * spacing + along near the top and the bottom edge,
      and stamps 2nx + 2j and 2nx + 2j + 1 at y = j * spacing + along near the
      left and the right edge. */
  lemma PerimeterLayout(width: nat, height: nat, spacing: nat, along: int)
    requires spacing > 0
    ensures var sites := PerimeterSites(width, height, spacing, along);
      var nx := CeilDiv(width, spacing);
      var ny := CeilDiv(height, spacing);
      && |sites| == 2 * nx + 2 * ny
      && (forall i :: 0 <= i < nx ==>
            && sites[2 * i] == Site(i * spacing + along, Near)
            && sites[2 * i + 1] == Site(i * spacing + along, height - Far))
      && (forall j :: 0 <= j < ny ==>
            && sites[2 * nx + 2 * j] == Site(Near, j * spacing + along)
            && sites[2 * nx + 2 * j + 1] == Site(width - Far, j * spacing + along))
  {
    var xs := Ticks(0, width, spacing);
    var ys := Ticks(0, height, spacing);
    TicksShape(0, width, spacing);
    TicksShape(0, height, spacing);
    TicksCount(width, spacing);
    TicksCount(height, spacing);
    TopBottomShape(xs, height, along);
    LeftRightShape(ys, width, along);
    var a := TopBottom(xs, height, along);
    var b := LeftRight(ys, width, along);
    var sites := a + b;
    forall j | 0 <= j < |ys|
      ensures sites[2 * |xs| + 2 * j] == Site(Near, j * spacing + along)
      ensures sites[2 * |xs| + 2 * j + 1] == Site(width - Far, j * spacing + along)
    {
      assert sites[2 * |xs| + 2 * j] == b[2 * j];
      assert sites[2 * |xs| + 2 * j + 1] == b[2 * j + 1];
    }
  }

  /** The number of stamps alone: 2 ceil(width / spacing) + 2 ceil(height / spacing). */
  lemma SitesCount(width: nat, height: nat, spacing: nat, along: int)
    requires spacing > 0
    ensures |PerimeterSites(width, height, spacing, along)| == 2 * CeilDiv(width, spacing) + 2 * CeilDiv(height, spacing)
  {
    PerimeterLayout(width, height, spacing, along);
  }

  /** Stamp k on its own: the horizontal pass comes first, two stamps per
      loop step, then the vertical pass. */
  lemma SiteAt(width: nat, height: nat, spacing: nat, along: int, k: nat)
    requires spacing > 0
    requires k < |PerimeterSites(width, height, spacing, along)|
    ensures var s := PerimeterSites(width, height, spacing, along)[k];
      var nx := CeilDiv(width, spacing);
      if k < 2 * nx then
        k / 2 < nx && s.x == k / 2 * spacing + along && (s.y == Near || s.y == height - Far)
      else
        (k - 2 * nx) / 2 < CeilDiv(height, spacing)
        && s.y == (k - 2 * nx) / 2 * spacing + along && (s.x == Near || s.x == width - Far)
  {
    PerimeterLayout(width, height, spacing, along);
    var nx := CeilDiv(width, spacing);
    if k < 2 * nx {
      var i := k / 2;
      assert k == 2 * i || k == 2 * i + 1;
    } else {
      var j := (k - 2 * nx) / 2;
      assert k == 2 * nx + 2 * j || k == 2 * nx + 2 * j + 1;
    }
  }
}
